=== FILE: README.md ===
# Cannon playable: a Dafny model

This project models the game logic of a small browser "playable". The
player drags back from a cannon to aim it and releases to fire a
projectile at a castle of blocks. The game is written in TypeScript on
top of Pixi (rendering) and Matter (physics). The model covers the parts
of the game that decide things:

- the cannon's aim-and-fire state machine, in its current form
  (`Cannon`) and its earlier form (`LegacyCannon`);
- the trajectory preview dots (`AimParabola`);
- the tween engine and its easing curves (`Tween`, `Easing`);
- the two game managers' object registries (`Registry`, `GameManager`,
  `LegacyGameManager`);
- the tutorial hand that ping-pongs between two points (`HandTutorial`,
  `UiTutorial`, `ComponentTutorial`);
- the end-of-round overlay (`GameOverlay`);
- the power and ammunition bars (`PowerIndicator`, `AmmoBar`);
- the tiled background (`Background`);
- the letterboxed viewport (`Viewport`);
- the texture registry (`AssetManager`).

All state is immutable: every operation is a pure function from the old
state (and its inputs) to the new state. JavaScript numbers are `real`.

- `Math.cos`, `Math.sin`, `Math.atan2` and `Math.hypot` are fields of a
  `Trig` record passed in as a parameter. No law about them is assumed, so
  every property holds whatever values they return.
- The clock (`performance.now()`) is a parameter named `now`.
- The physics engine, the renderer and the external tween library are not
  modelled. What a manager asks of them is returned as a log of `Effect`
  values.
- JavaScript's 32-bit integer operators `&`, `|` and `<<` are defined
  arithmetically in `JsBits`. Operands go through ToUint32/ToInt32, the bits
  are combined digit by digit, and the result is read back as a signed
  32-bit integer.

Tweens are shared objects in the game: the tutorial and the tween manager
hold the same tween. The model keeps all tweens in the manager's list and
refers to each one by its index, so a tween stopped through the tutorial
is stopped in the manager too. A tween's completion callback is data: a
`Hook`, which either does nothing or starts another tween of the same
manager.

## Model

| member | source | states |
|---|---|---|
| Cannon.ScreenToWorld | src/Components/Cannon.ts:64-69 | the world point, scaled by the container's scale and shifted by its offset, gives back the screen point |
| Cannon.Diff | src/Components/Cannon.ts:71-76 | the pointer position plus the difference is the barrel pivot (view position plus barrel position) |
| Cannon.Reset | src/Components/Cannon.ts:86-90 | power 0, not aimed, barrel at minus the default angle converted to radians; the dragging flag is kept |
| Cannon.Initial | src/Components/Cannon.ts:61 | the constructed cannon is not dragging, not aimed, has no power and sits at the default rotation |
| Cannon.LaunchPower | src/Components/Cannon.ts:131-137 | past the minimum distance, power is in (0, maxLaunchForce]; it saturates at maxLaunchForceDistance and is proportional to the distance beyond the minimum below that; a zero span (JavaScript's +Infinity, capped at 1) gives the full force |
| Cannon.LaunchPowerMonotone | src/Components/Cannon.ts:131-137 | a longer drag never gives less power |
| Cannon.WrapOnce | src/Components/Cannon.ts:144-145 | the wrap adds or removes at most one full turn, and brings any angle within three half-turns of zero into [-pi, pi] |
| Cannon.AimRotation | src/Components/Cannon.ts:139-149 | for every raw pointer angle the barrel rotation lies in the configured arc, [-limitMax, -limitMin] in radians |
| Cannon.AimRotationIsClamp | src/Components/Cannon.ts:139-149 | the rotation equals the wrapped, recentred pointer angle clamped to the arc, so the barrel follows the pointer inside the arc and stops at the nearer edge outside it |
| Cannon.AimRotationTracksInsideArc | src/Components/Cannon.ts:139-149 | a pointer angle inside an arc within [-pi, pi] is taken over unchanged |
| Cannon.Aim | src/Components/Cannon.ts:119-121 | aiming sets isAimed, the power of the drag distance and the clamped rotation, and keeps the dragging flag |
| Cannon.OnPointerDown | src/Components/Cannon.ts:92-99 | a drag (and aim) starts exactly when the pivot distance is strictly below dragDistance.max; otherwise the state is unchanged; power and rotation are never touched |
| Cannon.OnPointerMove | src/Components/Cannon.ts:101-110 | ignored unless dragging; at or inside dragDistance.min the aim resets while the drag continues; beyond it the cannon is aimed |
| Cannon.BarrelTip | src/Components/Cannon.ts:151-156 | the spawn point is the pivot advanced by (barrel width minus pivot x) along the rotation |
| Cannon.OnPointerUp | src/Components/Cannon.ts:112-129 | ignored unless dragging; otherwise the drag always ends with no power left, and one shot is fired exactly when the distance exceeds dragDistance.min; the shot's force is a tenth of the power along the clamped rotation and it spawns at the barrel tip; a short release only resets |
| Cannon.Step | src/Components/Cannon.ts:56-59 | of the three pointer listeners only pointer-up can fire |
| Cannon.Run | src/Components/Cannon.ts:112-129 | a run of pointer events fires no more shots than it has pointer-ups |
| Cannon.InitialValid | src/Components/Cannon.ts:86-90 | the constructed cannon satisfies the invariant: power in [0, maxLaunchForce], zero unless dragging and aimed, rotation at the default or inside the arc |
| Cannon.StepPreservesValid | src/Components/Cannon.ts:92-149 | every pointer event keeps that invariant |
| Cannon.RunPreservesValid | src/Components/Cannon.ts:92-149 | every state reached by a run of pointer events satisfies the invariant |
| LegacyCannon.Initial | src/Cannon.ts:9-11 | the cannon starts neither dragging nor powered |
| LegacyCannon.OnPointerDown | src/Cannon.ts:43-51 | a drag starts, remembering the pointer, exactly when the pointer is strictly within 60 of the sprite; otherwise nothing changes |
| LegacyCannon.DragPower | src/Cannon.ts:61-66 | power is a hundredth of the distance, capped at maxLaunchForce only when the game configuration exists: then exact below the cap and exactly maxLaunchForce at or beyond a hundred times it |
| LegacyCannon.OnPointerMove | src/Cannon.ts:53-67 | ignored unless dragging; otherwise the barrel points straight at the pointer with no clamp and the power follows the distance |
| LegacyCannon.OnPointerUp | src/Cannon.ts:69-80 | ignored unless dragging; otherwise the drag ends and a force of a tenth of the power along the barrel is always fired, whatever the distance, and the power is spent |
| LegacyCannon.Step | src/Cannon.ts:37-40 | each canvas event reaches its own listener: only pointer-up can fire, it fires exactly when a drag is in progress and always ends the drag, and a move never starts or ends one |
| LegacyCannon.Run | src/Cannon.ts:37-80 | over a run of events no drag starts without a pointer-down, and a run ending in a pointer-up leaves no drag in progress |
| LegacyCannon.StepPreservesValid | src/Cannon.ts:43-80 | power stays zero outside a drag and within the cap; a force is fired exactly on a pointer-up during a drag |
| LegacyCannon.RunValid | src/Cannon.ts:43-80 | every run of events keeps that invariant |
| AimParabola.Initial | src/Components/AimParabola.ts:17-24 | the constructor makes fifteen dots, all hidden |
| AimParabola.SampleTime | src/Components/AimParabola.ts:44 | every dot's sample time is positive and no later than the whole preview time of 15 steps |
| AimParabola.Velocity | src/Components/AimParabola.ts:38-40 | the launch velocity is the barrel direction scaled by the power, doubled |
| AimParabola.SamplePos | src/Components/AimParabola.ts:44-46 | a forward launch draws no dot behind the start, and a downward launch under downward gravity none above it |
| AimParabola.SamplesOnParabola | src/Components/AimParabola.ts:43-46 | consecutive dots are a constant x-step apart and their y-steps grow by gravity times the squared time step: the dots lie on one parabola |
| AimParabola.Alpha | src/Components/AimParabola.ts:57-58 | the time step cancels out of the fade: dot i has alpha 1 - (i+1)/15 |
| AimParabola.DotScale | src/Components/AimParabola.ts:57-59 | the scale follows the alpha, 0.2 + 0.8 times it, so it shrinks from 1 towards 0.2 as the dot fades |
| AimParabola.AlphaRange | src/Components/AimParabola.ts:57-58 | every dot's alpha lies in [0, 1), and the last dot's is 0 |
| AimParabola.FadeStrictlyDecreasing | src/Components/AimParabola.ts:57-59 | later dots are strictly more transparent and strictly smaller |
| AimParabola.ScaleRange | src/Components/AimParabola.ts:57-59 | every dot's scale lies in [0.2, 1) |
| AimParabola.Cutoff | src/Components/AimParabola.ts:43-51 | the cut-off index is the first sample below the screen bottom, or 15 when none is: every earlier sample is on screen |
| AimParabola.HideDotsFrom | src/Components/AimParabola.ts:63-67 | the dots from the index on are hidden and nothing else changes; no index past the fifteen dots is touched |
| AimParabola.Hide | src/Components/AimParabola.ts:69-71 | all fifteen dots are hidden and nothing else changes |
| AimParabola.Update | src/Components/AimParabola.ts:33-61 | the visible dots are exactly those before the cut-off; each one sits on the parabola with speed twice the power and time 2(i+1), with its fade; the rest are hidden and keep their other values |
| Easing.Ease | src/utils/Tween.ts:3-11 | every polynomial curve maps 0 to 0 and 1 to 1 and stays within [0, 1] on the way; the two in-out curves pass through one half at one half |
| Tween.Create | src/utils/Tween.ts:30-50 | only keys of the start record that the target object has are animated, from their start value to their end value; a new tween is neither paused nor finished and keeps the given duration, easing and completion callback |
| Tween.Start | src/utils/Tween.ts:52-56 | start makes the tween active with the clock reset to now and changes nothing else |
| Tween.Pause | src/utils/Tween.ts:58-63 | pause acts only on an active tween, remembering the time; afterwards the tween is inactive |
| Tween.Resume | src/utils/Tween.ts:65-71 | resume acts only on a paused tween, unpausing it and moving the start time on by exactly the paused span, and changes nothing else |
| Tween.Stop | src/utils/Tween.ts:106-108 | stop finishes the tween, making it inactive, and changes nothing else |
| Tween.Progress | src/utils/Tween.ts:76-77 | progress never exceeds 1, is 1 exactly once the duration has elapsed, and is the elapsed fraction before that |
| Tween.Interpolate | src/utils/Tween.ts:80-86 | every animated key is written, moved the eased fraction of the way from its start value to its target: 0 gives the start values, 1 exactly the targets, and any fraction in [0, 1] a value between the two |
| Tween.Update | src/utils/Tween.ts:73-100 | a finished or paused tween writes nothing and returns false; otherwise every key gets its eased value; the update reaching the duration lands on the targets, finishes the tween and returns true |
| Tween.CompletesOnce | src/utils/Tween.ts:92-97 | after the completing update, later updates do nothing, so the completion callback runs once |
| Tween.StopThenStart | src/utils/Tween.ts:106-108 | a stopped tween's update is inert, and starting it again makes it active |
| Tween.PauseResumeKeepsProgress | src/utils/Tween.ts:58-77 | a pause consumes no animation time: after pausing and resuming, progress is what it would have been that much earlier without the pause |
| Tween.PausedIsFrozen | src/utils/Tween.ts:58-74 | a paused tween's update writes nothing and changes nothing |
| Tween.Add | src/utils/Tween.ts:116-119 | add appends the tween, started at now, and leaves the earlier tweens as they were |
| Tween.RemoveAll | src/utils/Tween.ts:127-130 | every tween is stopped and the list is emptied |
| Tween.RunHook | src/utils/Tween.ts:94-96 | a completion hook only ever starts the tween it names |
| Tween.Turn | src/utils/Tween.ts:92-96 | a tween's turn in a pass changes only that tween and the tween its hook starts; a tween started at the time of the pass stays so, and a completion leaves the hooked tween started |
| Tween.UpdateFrom | src/utils/Tween.ts:121-125 | a manager pass keeps every tween, each one's hook and validity, and reports completions and writes only of tweens it visited |
| Tween.UpdateFromTicksOnce | src/utils/Tween.ts:121-125 | a tween that no hook starts is updated exactly once, at its own turn: it ends as its own update leaves it, is reported completed exactly when that update completes it, and gets exactly that update's writes; tweens whose turn is past are left alone |
| Tween.UpdateAll | src/utils/Tween.ts:121-125 | update removes no tween, and every tween that no hook starts ends as its own update at that time leaves it, completes exactly when that update does, and gets exactly that update's writes |
| Tween.UpdateFromKeepsFresh | src/utils/Tween.ts:121-125 | a tween started at the time of a pass stays active until the pass ends |
| Tween.CompletionStartsPartner | src/utils/Tween.ts:121-125 | when a tween completes during a pass and its hook starts another, that other tween is active when the pass ends |
| Registry.Create | src/Components/GameManager.ts:94-95 | adding an object appends it under an id not yet in the set |
| Registry.CreateAll | src/Components/GameManager.ts:76-80 | building objects one by one appends them in order with consecutive fresh ids and leaves the earlier ones untouched |
| Registry.CreateAllEmpty | src/Components/GameManager.ts:76-80 | building into an empty set gives exactly the built objects, in order, with ids counting up |
| Registry.Remove | src/GameManager.ts:77 | deleting from the set removes exactly the objects with that id, keeping the others |
| Registry.RemoveValid | src/GameManager.ts:77 | deleting keeps the ids distinct |
| Registry.DestroyEach | src/Components/GameManager.ts:107 | destroy is called once for each object, in set order |
| Registry.UpdateEach | src/Components/GameManager.ts:103 | update is called once for each object, in set order, with the frame's deltaTime |
| Registry.TearDown | src/Components/GameManager.ts:115-120 | destroy is called for every object in set order, the set is emptied, then the physics world is cleared; the ids stay used |
| Registry.Frame | src/Components/GameManager.ts:98-104 | each frame steps the physics by deltaTime times 16.667 ms, then ticks the tween library, then updates each object exactly once in set order |
| Registry.CountProjectilesAppend | src/Components/GameManager.ts:94-95 | projectile counts add over concatenation |
| Registry.CountProjectilesRemove | src/GameManager.ts:75-78 | deleting a projectile's id lowers the projectile count by one; deleting an absent id changes nothing |
| GameManager.CastleKinds | src/Components/GameManager.ts:76-77 | one block per configured entry, in order, placed at the castle position plus x and minus y |
| GameManager.CreateCastle | src/Components/GameManager.ts:74-81 | createCastle adds exactly one block per configured entry, in order, to both the block list and the set |
| GameManager.Build | src/Components/GameManager.ts:74-86 | the castle blocks come first in order, then the cannon at its configured position in its initial state; no projectile; every id is new |
| GameManager.CannonAfterCastle | src/Components/GameManager.ts:83-86 | adding the cannon after the castle keeps the blocks in place and gives the cannon the next id |
| GameManager.Construct | src/Components/GameManager.ts:21-38 | the constructed manager holds one block per entry plus the cannon, and refers only to objects in its set |
| GameManager.OnProjectileFire | src/Components/GameManager.ts:88-96 | the fired projectile becomes current and is added under a new id; earlier projectiles are not removed, so the projectile count grows by one |
| GameManager.Handle | src/Components/Cannon.ts:160 | a pointer event reaches the cannon, and its shot, if any, goes to onProjectileFire; nothing else changes |
| GameManager.ProjectilesAccumulate | src/Components/GameManager.ts:88-96 | after any run of pointer events the set holds one more projectile per shot fired, the cannon is where its own run leaves it, and the manager stays well formed |
| GameManager.Reset | src/Components/GameManager.ts:106-114 | every object is destroyed in set order; the rebuilt set holds the configured blocks and a cannon, with ids none of the old objects had, and no projectile |
| GameManager.ResetRebuilds | src/Components/GameManager.ts:106-114 | after a reset the manager holds what the constructor builds, up to the ids |
| GameManager.Destroy | src/Components/GameManager.ts:116-121 | every object is destroyed in set order, the set is emptied, then the physics world is cleared |
| LegacyGameManager.CastleLayoutIs | src/GameManager.ts:47-72 | the castle's six blocks are at (500, 500), (560, 500), (620, 500), (530, 470), (590, 470) and (560, 440) |
| LegacyGameManager.CastleIsPyramid | src/GameManager.ts:47-72 | each upper block is centred over the two below it, one block height higher |
| LegacyGameManager.CreateCastle | src/GameManager.ts:47-72 | one block per layout position, in order, added to the set and the block list |
| LegacyGameManager.Build | src/GameManager.ts:105-107 | the castle blocks in order, then the cannon at (100, 400); no projectile |
| LegacyGameManager.Construct | src/GameManager.ts:18-35 | the constructed manager holds seven objects and no projectile |
| LegacyGameManager.Tip | src/GameManager.ts:80-83 | a shot spawns at the cannon's position plus the barrel's direction (cos r, sin r) scaled by 60 |
| LegacyGameManager.FireProjectile | src/GameManager.ts:74-89 | the previous projectile, if any, is destroyed and removed; the new one is added at 60 along the barrel from the cannon and given the force; every other object stays; at most one projectile stays alive |
| LegacyGameManager.FireKeepsOne | src/GameManager.ts:74-86 | removing the tracked projectile and adding the new one leaves exactly one projectile, the new one |
| LegacyGameManager.ShotsKeepOne | src/GameManager.ts:74-89 | however many shots are fired, at most one projectile is ever alive |
| LegacyGameManager.Reset | src/GameManager.ts:99-108 | every object is destroyed in set order; the rebuilt set holds six fresh blocks and a fresh cannon, and no projectile |
| LegacyGameManager.Destroy | src/GameManager.ts:110-115 | every object is destroyed in set order, the set is emptied, then the physics world is cleared |
| HandTutorial.Leg | src/UI/Tutorial.ts:46-57 | each tween animates the hand's x and y from one endpoint to the other with easeInOutCubic, and its completion starts the other tween |
| HandTutorial.Wire | src/UI/Tutorial.ts:42-62 | startTutorial adds moveOut (1500 ms, start to end) and moveBack (50 ms, end to start), each completing into the other; both are active afterwards, since add starts each; earlier tweens are untouched |
| HandTutorial.StopTutorial | src/UI/Tutorial.ts:64-76 | only the first stop acts: it clears the active flag, hides the hand, and replaces the two wired tweens by their stopped selves, leaving every other tween as it was |
| HandTutorial.StopTutorialIdempotent | src/UI/Tutorial.ts:64-66 | a second stop changes nothing |
| UiTutorial.Construct | src/UI/Tutorial.ts:24-34 | both endpoints are the cannon position plus the configured local offsets, and the hand starts at the start point |
| UiTutorial.StartTutorial | src/UI/Tutorial.ts:42-62 | moveOut runs between the stored endpoints and moveBack back, each completing into the other, both active |
| UiTutorial.StopTutorial | src/UI/Tutorial.ts:64-76 | only the first stop acts: both tweens end finished, every other tween is unchanged, the hand is hidden and the endpoints are kept; later stops change nothing |
| UiTutorial.Retarget | src/UI/Tutorial.ts:84-94 | a tween's x and y now run from the new start to the new end |
| UiTutorial.Shift | src/UI/Tutorial.ts:78-96 | both endpoints move by the vector, so the distance from start to end is preserved |
| UiTutorial.ShiftRetargetsLegs | src/UI/Tutorial.ts:82-95 | after a shift, moveOut runs from the new start to the new end and moveBack back, and both keep running as before |
| ComponentTutorial.Construct | src/Components/Tutorial.ts:17-27 | the hand starts at the cannon position plus tutorialLocalStart |
| ComponentTutorial.StartTutorial | src/Components/Tutorial.ts:35-63 | moveOut (1500 ms) runs from start to end and moveBack (50 ms) back, each completing into the other, both active |
| ComponentTutorial.StopTutorial | src/Components/Tutorial.ts:65-77 | the first stop leaves both tweens finished, every other tween unchanged and the hand hidden; later stops change nothing |
| ComponentTutorial.StartThenStop | src/Components/Tutorial.ts:35-77 | started, then stopped: both tweens finished, the hand hidden, and a further stop is a no-op |
| GameOverlay.Construct | src/Components/GameOverlay.ts:9-36 | the overlay starts hidden with the panel above the screen |
| GameOverlay.Slide | src/Components/GameOverlay.ts:117-134 | the panel slide animates y from -100 to 0 over 500 ms with easeInOutCubic |
| GameOverlay.Show | src/Components/GameOverlay.ts:98-136 | show while visible does nothing; otherwise it becomes visible with the outcome's message, button text and colours, and adds exactly one started slide tween |
| GameOverlay.Hide | src/Components/GameOverlay.ts:138-143 | hide while hidden does nothing; otherwise it hides and moves the panel back up |
| GameOverlay.Message | src/Components/GameOverlay.ts:102-112 | the message is "YOU WON" exactly for a win and "YOU LOST" otherwise |
| GameOverlay.Button | src/Components/GameOverlay.ts:102-112 | the button reads "NEXT LEVEL" exactly for a win and "TRY AGAIN" otherwise |
| GameOverlay.Color | src/Components/GameOverlay.ts:102-112 | message and button are green #2e7d32 exactly for a win and red #c62828 otherwise |
| GameOverlay.FirstOutcomePersists | src/Components/GameOverlay.ts:99-112 | the first outcome shown stays on screen until the overlay is hidden, and the second show adds no tween |
| GameOverlay.OutcomesDistinct | src/Components/GameOverlay.ts:102-112 | win and lose differ in message, button text and colour |
| GameOverlay.FollowSlide | src/Components/GameOverlay.ts:128-133 | after each slide update that writes, onUpdate copies the animated y into the panel's offset and, when the update completes the slide, onComplete sets it to 0; nothing else on the overlay changes |
| GameOverlay.PanelFollowsSlide | src/Components/GameOverlay.ts:115-135 | while the slide runs the panel's offset stays between -100 and 0 vh, and once 500 ms have passed it rests at 0 |
| GameOverlay.SlideLands | src/Components/GameOverlay.ts:117-134 | once 500 ms have passed, the slide's update puts the panel at 0 and completes |
| PowerIndicator.Construct | src/UI/PowerIndicator.ts:9-29 | the indicator starts hidden with an empty fill |
| PowerIndicator.SetVisible | src/UI/PowerIndicator.ts:31-33 | only the visibility changes, to exactly the value given |
| PowerIndicator.Percent | src/UI/PowerIndicator.ts:36-37 | with a positive maximum the fraction is at most 1, exactly 1 at or beyond the maximum, proportional to the power below it, and negative for a negative power |
| PowerIndicator.EndColor | src/UI/PowerIndicator.ts:48 | for a fraction in [0, 1] the gradient ends in red with a green channel of the truncated fraction of 255, between red and yellow; the shift cannot overflow |
| PowerIndicator.Fill | src/UI/PowerIndicator.ts:36-38 | the fill never exceeds the background, is full at or beyond the maximum, is proportional to the power below it, and is negative for a negative power since nothing clamps from below |
| PowerIndicator.UpdatePower | src/UI/PowerIndicator.ts:35-55 | the fill follows the power; at or beyond the maximum the bar is full and ends in yellow; for non-negative powers the colour lies between red and yellow; the visibility is untouched |
| PowerIndicator.FillMonotone | src/UI/PowerIndicator.ts:36-38 | more power never shortens the fill |
| AmmoBar.Construct | src/UI/AmmoBar.ts:10-37 | the bar takes its size from the configuration and has no fill |
| AmmoBar.Percent | src/UI/AmmoBar.ts:40 | the fraction lies in [0, 1]; it is 0 with no ammunition, 1 when full, and proportional in between |
| AmmoBar.PercentMonotone | src/UI/AmmoBar.ts:40 | more ammunition never lowers the fraction |
| AmmoBar.Fill | src/UI/AmmoBar.ts:41 | the fill width lies in [0, bar width], is empty with no ammunition, full when full, and proportional in between |
| AmmoBar.FillIsFraction | src/UI/AmmoBar.ts:41 | the fill width is the fraction times the bar width |
| AmmoBar.Ramp | src/UI/AmmoBar.ts:42 | the ramp lies in [0, 255], is 0 at both ends, peaks at 255 at one half, and stays below 255 under one half |
| AmmoBar.AsWrittenRampIsOneBit | src/UI/AmmoBar.ts:42 | as written, the mask keeps only the ramp's top bit, so the added channel is 0 or 128 |
| AmmoBar.IntendedRampKept | src/UI/AmmoBar.ts:42 | with a one-byte mask the whole ramp survives |
| AmmoBar.ComposeChannels | src/UI/AmmoBar.ts:46 | below one half the ramp becomes the green channel of red, from one half on the red channel of green |
| AmmoBar.Color | src/UI/AmmoBar.ts:42-46 | with the one-byte mask the colour runs from red (empty) through yellow to green (full) |
| AmmoBar.ColorAsWritten | src/UI/AmmoBar.ts:42-46 | as written, empty is still pure red and full pure green, because the ramp is 0 at both ends |
| AmmoBar.SetAmmoAsWritten | src/UI/AmmoBar.ts:39-47 | setAmmo as written: the fill follows the fraction and the colour comes from the top-bit ramp; empty ammunition is still red with no fill, and full is green with a full fill |
| AmmoBar.SetAmmo | src/UI/AmmoBar.ts:39-47 | setAmmo with the one-byte mask: empty ammunition is red with no fill, full is green with a full fill |
| AmmoBar.QuarterFullIsPureRed | src/UI/AmmoBar.ts:40-46 | one round of four gives pure red as written, where the one-byte mask gives orange 0xff7f00 |
| AmmoBar.AsWrittenLowerHalfTwoColors | src/UI/AmmoBar.ts:42-46 | as written, every fraction below one half gets one of only two colours |
| AmmoBar.FillMonotone | src/UI/AmmoBar.ts:40-41 | more ammunition never shortens the fill |
| Background.Columns | src/UI/Background.ts:39-47 | one tile per column in the range, each at its column times the tile width |
| Background.ColumnsAbut | src/UI/Background.ts:39-47 | consecutive tiles are one column and one tile width apart |
| Background.TopFog | src/UI/Background.ts:75 | the top fog is four fog heights tall and reaches one fog height below the background's top |
| Background.BottomFog | src/UI/Background.ts:78 | the bottom fog is four fog heights tall and starts one fog height above the background's bottom |
| Background.UpdateBounds | src/UI/Background.ts:32-80 | every old tile is destroyed; one tile is laid per column from floor(left/w) up to ceil(right/w), each at its column times w on backgroundY; both fogs are redrawn |
| Background.TilesAbut | src/UI/Background.ts:36-47 | the new tiles run left to right with no gap between them |
| Background.TileIffOverlaps | src/UI/Background.ts:36-47 | with a positive tile width, a column gets a tile exactly when its tile meets the open span from left to right |
| Background.SpanCovered | src/UI/Background.ts:36-47 | a non-empty span gets at least one tile, and the tiles cover it from left to right |
| Viewport.Fit | src/main.ts:44-51 | for any window the design area fits and fills at least one axis, and the offsets are equal non-negative margins; the scale is positive for a window of positive size and 0 for one with no width or no height |
| Viewport.DesignRoundTrip | src/main.ts:44-51 | every design point lands inside the window, and the cannon's screen-to-world conversion maps it back |
| Viewport.CentreToCentre | src/main.ts:44-51 | the centre of the window maps to the centre of the design area |
| AssetManager.FileName | src/utils/AssetManager.ts:17-18 | the cache key is the bundler key without its first two characters |
| AssetManager.ImageMap | src/utils/AssetManager.ts:14-20 | a file name is in the image map exactly when some bundled key yields it |
| AssetManager.LastEntryWins | src/utils/AssetManager.ts:17-20 | of several keys with the same file name, the last one's image is kept |
| AssetManager.LoadAll | src/utils/AssetManager.ts:24-40 | the cache holds exactly the images that load, under their file names, and the load succeeds exactly when every image loads |
| AssetManager.StripAssets | src/utils/AssetManager.ts:43 | one leading "assets/" is dropped and nothing else is touched |
| AssetManager.StripOnce | src/utils/AssetManager.ts:43 | a prefixed path reaches the same entry as the bare file name, and only one prefix is removed |
| AssetManager.Lookup | src/utils/AssetManager.ts:42-45 | a lookup finds the cached texture of the stripped path, or null when there is none |
| AssetManager.NothingBeforeLoad | src/utils/AssetManager.ts:22-45 | before loading, the cache is empty and every lookup is null |
| AssetManager.ConfigPathFindsImage | src/utils/AssetManager.ts:17-45 | an image bundled as "./f" and named in the configuration as "assets/f" is found after loading |
| AssetManager.UnknownPathMissing | src/utils/AssetManager.ts:42-45 | a path naming no bundled file is not found |
| JsBits.AndByteMask | src/UI/AmmoBar.ts:42 | and-ing a byte with (1 << 8) - 1 keeps it |
| JsBits.AndTopBit | src/UI/AmmoBar.ts:42 | and-ing a byte with 1 << 7 keeps only its top bit |
| JsBits.OrMiddleByte | src/UI/AmmoBar.ts:46 | 0xff0000 or-ed with a byte shifted left by 8 adds it as the middle channel |
| JsBits.OrTopByte | src/UI/AmmoBar.ts:46 | 0x00ff00 or-ed with a byte shifted left by 16 adds it as the top channel |

## Left out

- Physics: Matter bodies, world and engine calls are not modelled. The managers return their requests (`EngineStep`, `ApplyForce`, `Destroy`, `ClearWorld`) as effects. Blocks, projectiles and the cannon are abstract ids.
- Rendering and the DOM: Pixi sprites, graphics, gradients, CSS and event listeners are left out. Only the numbers and flags written into them are kept.
- Trigonometry: cos, sin, atan2 and hypot are parameters, and no law about them is used.
- `easeOutElastic` is left out because it needs `Math.pow` and `Math.sin`. The seven polynomial easings are modelled.
- Floating point: all arithmetic is on reals, so IEEE-754 rounding is not modelled.
- Other JavaScript number edge cases:
  - NaN and infinities are not modelled.
  - The one exception is a zero span in `updatePower`, which JavaScript turns into a full-strength shot via +Infinity. `Cannon.LaunchPower` handles that case explicitly.
- The clock is a parameter. Each callback reads the same frame time as the update that runs it.
- `TWEEN.update()` in both game managers belongs to the external `@tweenjs/tween.js` library, not to src/utils/Tween.ts. It appears only as a `TweenTick` effect.
- `createBoundaries` of both managers is left out. It only creates static physics bodies and a ground sprite.
- `createFallbackTexture` is left out (it generates textures on the GPU).
- `loadAllTextures`: image decoding is a parameter. The promise's rejection is reduced to a flag, and its timing is not modelled.
- src/utils/OrientationHandler.ts, webpack.config.js, src/utils/Types.ts (apart from the block entry shape), Projectile, Block, Target and GameObject are not part of this model. They are platform glue or thin wrappers over Matter and Pixi.
- Tween.Create: requires a positive duration. Zero would make JavaScript compute 0/0 = NaN.
- Tween.Create: requires the end record to hold every animated key. A missing key would make JavaScript write NaN.
- PowerIndicator.UpdatePower: requires `maxPower != 0`. JavaScript would compute NaN or Infinity.
- PowerIndicator.Fill: the same requirement, for the same reason.
- PowerIndicator.Percent: the same requirement, for the same reason.
- AmmoBar.Percent: requires `max != 0`. JavaScript would compute NaN or Infinity.
- AmmoBar.Fill: requires `max != 0`, for the same reason.
- AmmoBar.SetAmmo: requires `max != 0`, for the same reason.
- AmmoBar.SetAmmoAsWritten: requires `max != 0`, for the same reason.
- Background.UpdateBounds: requires a non-zero tile width. Zero would make JavaScript compute an infinite column range.
- Cannon.ScreenToWorld: requires a non-zero container scale.
- HandTutorial.Wire: each completion hook names a fixed tween, while the code's callbacks start whatever `this.moveBack` or `this.moveOut` is when they run. A second `startTutorial` on a started tutorial therefore differs: in the code the old pair's next completion starts the new pair and the old ping-pong ends, in the model the old pair keeps restarting each other, also after `stopTutorial`. No caller starts a tutorial twice.
- UiTutorial.StartTutorial: the same difference for a repeated start, through `HandTutorial.Wire`.
- ComponentTutorial.StartTutorial: the same difference for a repeated start, through `HandTutorial.Wire`.
- Debug logging: the `console.log` calls in `updateBounds` (src/UI/Background.ts:76,79) only print, and are not modelled.
- GameManager.Reset: the rebuilt cannon's constructor adds three new canvas listeners (src/Components/Cannon.ts:56-59), and nothing removes the old cannon's, so the old cannon keeps handling pointer events after a reset. Listeners are not modelled, so the model drops the old cannon at once.
- LegacyGameManager.Reset: the same holds for the older cannon (src/Cannon.ts:37-40). An old cannon still mid-drag at the reset fires through `fireProjectile` on the next pointer-up. The model drops the old cannon at once and does not model that stale shot.
- AssetManager.Lookup: the texture cache is a plain object in the code and a map here. A name inherited from `Object.prototype`, such as `constructor`, finds the inherited value in the code but nothing in the model.
- The maximum power, `conf.maxLaunchPower`, is read from configuration that src/utils/Types.ts does not declare. It is a plain parameter here.
- Fog placement: the code draws both fog rectangles at x = 0 rather than at `left`. The model keeps that, so the fog covers the span only when `left` is 0.
- Behaviour a reader might expect that the code does not have:
  - The current cannon has no shot counter and no firing lock-out.
  - It fires a force of a tenth of the power, not a velocity.
  - The minimum-distance gate is strict (a release exactly at `dragDistance.min` resets).
  - The angle is wrapped once rather than normalised.
  - The frame steps the physics once, unclamped.
  - The current manager keeps every fired projectile.
  - The preview's speed is twice the power.

## Findings

| source | as written | input that shows it | evidently intended | confidence | as-written member | corrected member |
|---|---|---|---|---|---|---|
| src/UI/AmmoBar.ts:42 | the colour ramp is masked with `1<<8 - 1`, which JavaScript parses as `1 << 7` = 128, so only the ramp's top bit survives | `setAmmo(1, 4)`: the ramp is 127, the mask clears it, and the bar is pure red 0xff0000 | `(1 << 8) - 1` = 255, keeping the whole ramp, so a quarter-full bar is orange 0xff7f00 | not executed | AmmoBar.QuarterFullIsPureRed | AmmoBar.SetAmmo |

=== FILE: aim_parabola.dfy ===
/**
 The trajectory preview (src/Components/AimParabola.ts): fifteen dots
 sampled from the analytic parabola of a launch, cut off at the first
 sample below the bottom of the design resolution, fading and shrinking
 with the sample index.
 */
module AimParabola {
  import opened Common

  const MaxDots: nat := 15
  const TimeStep: real := 2.0

  /** The state of one dot sprite that the preview writes. */
  datatype Dot = Dot(visible: bool, pos: Vec, alpha: real, scale: real)

  /** The constructor's dots: fifteen hidden sprites with Pixi's defaults. */
  function Initial(): (dots: seq<Dot>)
    ensures |dots| == MaxDots
    ensures forall i :: 0 <= i < |dots| ==> !dots[i].visible
  {
    seq(MaxDots, i => Dot(false, Vec(0.0, 0.0), 1.0, 1.0))
  }

  /** The sample time of dot `i`: after the start, and within the preview window for every dot. */
  function SampleTime(i: nat): (s: real)
    ensures 0.0 < s
    ensures i < MaxDots ==> s <= MaxDots as real * TimeStep
  {
    (i + 1) as real * TimeStep
  }

  /** The launch velocity: the unit of power along the angle, doubled. */
  function Velocity(t: Trig, angle: real, power: real): (v: Vec)
    ensures v == t.Polar(angle, power).Times(2.0)
  {
    t.Polar(angle, power * 2.0)
  }

  /**
   Where dot `i` is drawn: uniform motion in x, constant acceleration `g` in
   y. A forward launch never draws a dot behind the start, and a downward
   launch under downward gravity never draws one above it.
   */
  function SamplePos(start: Vec, v: Vec, g: real, i: nat): (p: Vec)
    ensures v.x >= 0.0 ==> p.x >= start.x
    ensures v.y >= 0.0 && g >= 0.0 ==> p.y >= start.y
  {
    var s := SampleTime(i);
    Vec(start.x + v.x * s, start.y + v.y * s + 0.5 * g * s * s)
  }

  /**
   The samples lie on one parabola: consecutive dots are a constant step
   apart in x, and the step in y grows by the same `g * TimeStep^2` each time.
   */
  lemma SamplesOnParabola(start: Vec, v: Vec, g: real, i: nat)
    ensures SamplePos(start, v, g, i + 1).x - SamplePos(start, v, g, i).x == v.x * TimeStep
    ensures (SamplePos(start, v, g, i + 2).y - SamplePos(start, v, g, i + 1).y)
            - (SamplePos(start, v, g, i + 1).y - SamplePos(start, v, g, i).y) == g * TimeStep * TimeStep
  {
    var a, b, c := SampleTime(i), SampleTime(i + 1), SampleTime(i + 2);
    assert b == a + TimeStep && c == a + 2.0 * TimeStep;
    assert v.x * b - v.x * a == v.x * TimeStep;
    assert c * c - 2.0 * (b * b) + a * a == 2.0 * TimeStep * TimeStep;
  }

  /** The fraction of the whole preview time that has elapsed at dot `i`. */
  function Progress(i: nat): real { SampleTime(i) / (MaxDots as real * TimeStep) }

  /** The alpha of dot `i`: the time step cancels, so the fade is linear in the index alone. */
  function Alpha(i: nat): (a: real)
    ensures a == 1.0 - (i + 1) as real / MaxDots as real
  {
    ProgressIs(i);
    1.0 - Progress(i)
  }

  /** The scale of dot `i` follows its alpha, from 1 down to 0.2 as the alpha goes from 1 to 0. */
  function DotScale(i: nat): (d: real)
    ensures d == 0.2 + 0.8 * Alpha(i)
  {
    1.0 - Progress(i) * 0.8
  }

  lemma ProgressIs(i: nat)
    ensures Progress(i) == (i + 1) as real / 15.0
  {
  }

  /** Every dot's alpha lies in [0, 1), and the last dot is fully transparent. */
  lemma AlphaRange(i: nat)
    requires i < MaxDots
    ensures 0.0 <= Alpha(i) < 1.0
    ensures i == MaxDots - 1 ==> Alpha(i) == 0.0
  {
    ProgressIs(i);
  }

  /** Later dots are strictly more transparent and strictly smaller. */
  lemma FadeStrictlyDecreasing(i: nat, j: nat)
    requires i < j
    ensures Alpha(j) < Alpha(i)
    ensures DotScale(j) < DotScale(i)
  {
    ProgressIs(i);
    ProgressIs(j);
  }

  /** Every dot's scale lies in [0.2, 1). */
  lemma ScaleRange(i: nat)
    requires i < MaxDots
    ensures 0.2 <= DotScale(i) < 1.0
  {
    ProgressIs(i);
  }

  /**
   The first index from `j` on whose sample lies below the screen bottom
   `h`, or `MaxDots` if there is none.
   */
  function CutoffFrom(start: Vec, v: Vec, g: real, h: real, j: nat): (k: nat)
    requires j <= MaxDots
    ensures j <= k <= MaxDots
    ensures forall i :: j <= i < k ==> SamplePos(start, v, g, i).y <= h
    ensures k < MaxDots ==> SamplePos(start, v, g, k).y > h
    decreases MaxDots - j
  {
    if j == MaxDots then MaxDots
    else if SamplePos(start, v, g, j).y > h then j
    else CutoffFrom(start, v, g, h, j + 1)
  }

  function Cutoff(start: Vec, v: Vec, g: real, h: real): (k: nat)
    ensures k <= MaxDots
    ensures forall i :: 0 <= i < k ==> SamplePos(start, v, g, i).y <= h
    ensures k < MaxDots ==> SamplePos(start, v, g, k).y > h
  {
    CutoffFrom(start, v, g, h, 0)
  }

  /** `hideDotsFrom`: hides dots `index..14` and touches nothing else. */
  method HideDotsFrom(dots: seq<Dot>, index: nat) returns (out: seq<Dot>)
    requires |dots| == MaxDots
    ensures |out| == MaxDots
    ensures forall i :: 0 <= i < index && i < MaxDots ==> out[i] == dots[i]
    ensures forall i :: index <= i < MaxDots ==> out[i] == dots[i].(visible := false)
  {
    out := dots;
    var i := index;
    while i < MaxDots
      invariant |out| == MaxDots
      invariant forall k :: 0 <= k < MaxDots && (k < index || k >= i) ==> out[k] == dots[k]
      invariant forall k :: index <= k < i && k < MaxDots ==> out[k] == dots[k].(visible := false)
    {
      out := out[i := out[i].(visible := false)];
      i := i + 1;
    }
  }

  /** `hide`: all fifteen dots invisible, nothing else changed. */
  method Hide(dots: seq<Dot>) returns (out: seq<Dot>)
    requires |dots| == MaxDots
    ensures |out| == MaxDots
    ensures forall i :: 0 <= i < MaxDots ==> out[i] == dots[i].(visible := false)
  {
    out := HideDotsFrom(dots, 0);
  }

  /**
   `update`: the visible dots are exactly the prefix before the cut-off;
   each sits on the parabola with its fade; the rest are hidden and keep
   their last position, alpha and scale.
   */
  method Update(dots: seq<Dot>, t: Trig, start: Vec, angle: real, power: real, g: real, h: real)
    returns (out: seq<Dot>)
    requires |dots| == MaxDots
    ensures |out| == MaxDots
    ensures var v := Velocity(t, angle, power);
            var k := Cutoff(start, v, g, h);
            && (forall i :: 0 <= i < MaxDots ==> (out[i].visible <==> i < k))
            && (forall i :: 0 <= i < k ==>
                  out[i] == Dot(true, SamplePos(start, v, g, i), Alpha(i), DotScale(i)))
            && (forall i :: k <= i < MaxDots ==> out[i] == dots[i].(visible := false))
  {
    var v := Velocity(t, angle, power);
    ghost var k := Cutoff(start, v, g, h);
    out := dots;
    var i := 0;
    while i < MaxDots
      invariant i <= k
      invariant |out| == MaxDots
      invariant forall j :: 0 <= j < i ==>
                  out[j] == Dot(true, SamplePos(start, v, g, j), Alpha(j), DotScale(j))
      invariant forall j :: i <= j < MaxDots ==> out[j] == dots[j]
    {
      var p := SamplePos(start, v, g, i);
      if p.y > h {
        assert i == k;
        out := HideDotsFrom(out, i);
        return;
      }
      out := out[i := Dot(true, p, Alpha(i), DotScale(i))];
      i := i + 1;
    }
    assert k == MaxDots;
  }
}

=== FILE: ammo_bar.dfy ===
/**
 The ammunition bar (src/UI/AmmoBar.ts): a fill whose width is the
 fraction of ammunition left and whose colour fades from red through yellow
 to green as the fraction grows. The source masks the colour ramp with
 `1<<8 - 1`, which JavaScript parses as `1 << 7`; the model keeps that
 reading as `SetAmmoAsWritten` and defines `SetAmmo` with the intended
 byte mask `(1 << 8) - 1`.
 */
module AmmoBar {
  import opened Common
  import opened JsBits

  const Red: int := 0xff0000
  const Green: int := 0x00ff00

  datatype Bar = Bar(barWidth: real, barHeight: real, fillWidth: real, color: int)

  /** The constructor: the size from `ammoBarSize`; nothing is filled until the first `setAmmo`. */
  function Construct(width: real, height: real): (b: Bar)
    ensures b.barWidth == width && b.barHeight == height && b.fillWidth == 0.0
  {
    Bar(width, height, 0.0, Red)
  }

  /** The fraction of ammunition left, clamped to [0, 1]. */
  function Percent(current: real, max: real): (p: real)
    requires max != 0.0
    ensures 0.0 <= p <= 1.0
    ensures max > 0.0 && current <= 0.0 ==> p == 0.0
    ensures max > 0.0 && current >= max ==> p == 1.0
    ensures max > 0.0 && 0.0 <= current <= max ==> p * max == current
  {
    var q := current / max;
    if max > 0.0 then
      DivFacts(current, max);
      Max(0.0, Min(1.0, q))
    else Max(0.0, Min(1.0, q))
  }

  /** The ramp before masking: rising to 255 towards the middle, falling back after it. */
  function Ramp(percent: real): (v: int)
    requires 0.0 <= percent <= 1.0
    ensures 0 <= v <= 255
    ensures percent < 0.5 ==> v <= 254
    ensures percent == 0.0 || percent == 1.0 ==> v == 0
    ensures percent == 0.5 ==> v == 255
  {
    if percent < 0.5 then Trunc(percent * 510.0) else Trunc((1.0 - percent) * 510.0)
  }

  /** The mask as written, `1<<8 - 1`: subtraction binds tighter than the shift. */
  function MaskAsWritten(): int { Shl(1, 8 - 1) }

  /** The mask evidently intended: one full byte. */
  function MaskIntended(): int { Shl(1, 8) - 1 }

  /**
   The colour from a fraction and the masked ramp: below one half the ramp
   goes into the green channel of red, from one half on into the red
   channel of green.
   */
  function Compose(percent: real, add: int): int {
    if percent < 0.5 then Or(Red, Shl(add, 8)) else Or(Green, Shl(add, 16))
  }

  /** With a byte-sized ramp the or-ing adds a channel to the base colour. */
  lemma ComposeChannels(percent: real, add: int)
    requires 0 <= add <= 255
    ensures percent < 0.5 ==> Compose(percent, add) == Rgb(255, add, 0)
    ensures percent >= 0.5 ==> Compose(percent, add) == Rgb(add, 255, 0)
  {
    if percent < 0.5 {
      OrMiddleByte(add);
    } else {
      OrTopByte(add);
    }
  }

  /** The fill width: the clamped fraction of the bar, proportional to the ammunition in between. */
  function Fill(barWidth: real, current: real, max: real): (w: real)
    requires max != 0.0
    ensures barWidth >= 0.0 ==> 0.0 <= w <= barWidth
    ensures max > 0.0 && 0.0 <= current <= max ==> w * max == current * barWidth
    ensures max > 0.0 && current <= 0.0 ==> w == 0.0
    ensures max > 0.0 && current >= max ==> w == barWidth
  {
    var percent := Percent(current, max);
    if barWidth >= 0.0 then
      assert percent <= 1.0;
      MulMonotone(percent, 1.0, barWidth);
      assert percent * barWidth <= 1.0 * barWidth;
      assert 1.0 * barWidth == barWidth;
      assert 0.0 <= percent * barWidth;
      percent * barWidth
    else percent * barWidth
  }

  /**
   The fill colour as the source computes it: the ramp anded with `1 << 7`.
   The ramp is 0 at both ends, so the ends are still pure red and pure green.
   */
  function ColorAsWritten(percent: real): (c: int)
    requires 0.0 <= percent <= 1.0
    ensures percent == 0.0 ==> c == Red
    ensures percent == 1.0 ==> c == Green
  {
    var add := And(Ramp(percent), MaskAsWritten());
    AsWrittenRampIsOneBit(percent);
    ComposeChannels(percent, add);
    Compose(percent, add)
  }

  /**
   The fill colour with the byte mask: the whole ramp goes into the moving
   channel, so the colour runs from red (empty) through yellow to green (full).
   */
  function Color(percent: real): (c: int)
    requires 0.0 <= percent <= 1.0
    ensures percent < 0.5 ==> c == Rgb(255, Ramp(percent), 0)
    ensures percent >= 0.5 ==> c == Rgb(Ramp(percent), 255, 0)
    ensures percent == 0.0 ==> c == Red
    ensures percent == 1.0 ==> c == Green
  {
    var add := And(Ramp(percent), MaskIntended());
    IntendedRampKept(percent);
    ComposeChannels(percent, add);
    Compose(percent, add)
  }

  /** As written the ramp collapses to two values: only its top bit survives. */
  lemma AsWrittenRampIsOneBit(percent: real)
    requires 0.0 <= percent <= 1.0
    ensures And(Ramp(percent), MaskAsWritten()) == (if Ramp(percent) >= 0x80 then 0x80 else 0)
  {
    AndTopBit(Ramp(percent));
  }

  /** The intended mask keeps the whole ramp. */
  lemma IntendedRampKept(percent: real)
    requires 0.0 <= percent <= 1.0
    ensures And(Ramp(percent), MaskIntended()) == Ramp(percent)
  {
    AndByteMask(Ramp(percent));
  }

  /** `setAmmo` as the source has it. */
  function SetAmmoAsWritten(b: Bar, current: real, max: real): (r: Bar)
    requires max != 0.0
    ensures r.barWidth == b.barWidth && r.barHeight == b.barHeight
    ensures r.fillWidth == Fill(b.barWidth, current, max)
    ensures r.color == ColorAsWritten(Percent(current, max))
    ensures max > 0.0 && current <= 0.0 ==> r.color == Red && r.fillWidth == 0.0
    ensures max > 0.0 && current >= max ==> r.color == Green && r.fillWidth == b.barWidth
  {
    var percent := Percent(current, max);
    b.(fillWidth := Fill(b.barWidth, current, max), color := ColorAsWritten(percent))
  }

  /** `setAmmo` with the byte mask. */
  function SetAmmo(b: Bar, current: real, max: real): (r: Bar)
    requires max != 0.0
    ensures r.barWidth == b.barWidth && r.barHeight == b.barHeight
    ensures r.fillWidth == Fill(b.barWidth, current, max)
    ensures r.color == Color(Percent(current, max))
    ensures max > 0.0 && current <= 0.0 ==> r.color == Red && r.fillWidth == 0.0
    ensures max > 0.0 && current >= max ==> r.color == Green && r.fillWidth == b.barWidth
  {
    var percent := Percent(current, max);
    b.(fillWidth := Fill(b.barWidth, current, max), color := Color(percent))
  }

  /**
   A quarter of the ammunition left: the ramp is 127, which the written mask
   wipes out, so the bar is pure red instead of the orange `0xff7f00`.
   */
  lemma QuarterFullIsPureRed(b: Bar)
    ensures SetAmmoAsWritten(b, 1.0, 4.0).color == Red
    ensures SetAmmo(b, 1.0, 4.0).color == 0xff7f00
  {
    assert Percent(1.0, 4.0) == 0.25;
    assert Ramp(0.25) == 127;
    AsWrittenRampIsOneBit(0.25);
    ComposeChannels(0.25, 0);
  }

  /** As written, every fraction below one half gets one of only two colours. */
  lemma AsWrittenLowerHalfTwoColors(percent: real)
    requires 0.0 <= percent < 0.5
    ensures ColorAsWritten(percent) == Red || ColorAsWritten(percent) == Rgb(255, 0x80, 0)
  {
    AsWrittenRampIsOneBit(percent);
    ComposeChannels(percent, And(Ramp(percent), MaskAsWritten()));
  }

  /** More ammunition never lowers the fraction. */
  lemma PercentMonotone(c1: real, c2: real, max: real)
    requires max > 0.0 && c1 <= c2
    ensures Percent(c1, max) <= Percent(c2, max)
  {
    DivMonotone(c1, c2, max);
    var q1, q2 := c1 / max, c2 / max;
    assert Min(1.0, q1) <= Min(1.0, q2);
    assert Percent(c1, max) == Max(0.0, Min(1.0, q1));
    assert Percent(c2, max) == Max(0.0, Min(1.0, q2));
  }

  /** More ammunition never shortens the fill. */
  lemma FillMonotone(barWidth: real, c1: real, c2: real, max: real)
    requires max > 0.0 && barWidth >= 0.0 && c1 <= c2
    ensures Fill(barWidth, c1, max) <= Fill(barWidth, c2, max)
  {
    calc {
      Fill(barWidth, c1, max);
    == { FillIsFraction(barWidth, c1, max); }
      Percent(c1, max) * barWidth;
    <= { PercentMonotone(c1, c2, max); MulMonotone(Percent(c1, max), Percent(c2, max), barWidth); }
      Percent(c2, max) * barWidth;
    == { FillIsFraction(barWidth, c2, max); }
      Fill(barWidth, c2, max);
    }
  }

  /** The fill is the fraction of the bar's width. */
  lemma FillIsFraction(barWidth: real, current: real, max: real)
    requires max != 0.0
    ensures Fill(barWidth, current, max) == Percent(current, max) * barWidth
  {
  }
}

=== FILE: asset_manager.dfy ===
/**
 The texture registry (src/utils/AssetManager.ts). The bundler hands over
 every image under the assets folder as a key such as `./ui/hand.png` with
 its data URL; the registry files each under its key minus the leading
 `./`, loads them all into a texture cache, and answers lookups by a
 configuration path that may carry an `assets/` prefix. Decoding an image
 is a parameter: `decode(data)` is the texture, or `None` when the image
 fails to load.
 */
module AssetManager {
  import opened Common

  /** The cache key of a bundler key: `key.substring(2)`, which is empty for keys shorter than two characters. */
  function FileName(key: string): (f: string)
    ensures |key| >= 2 ==> key == key[..2] + f
    ensures |key| < 2 ==> f == []
  {
    if |key| >= 2 then key[2..] else []
  }

  /**
   `imageMap`: the bundler's entries filed by file name, in order, so that a
   later entry with the same file name replaces an earlier one.
   */
  function ImageMap(entries: seq<(string, string)>): (m: map<string, string>)
    ensures forall f :: f in m <==> exists i :: 0 <= i < |entries| && FileName(entries[i].0) == f
    decreases |entries|
  {
    if |entries| == 0 then map[]
    else
      var last := entries[|entries| - 1];
      var m := ImageMap(entries[..|entries| - 1]);
      assert forall i :: 0 <= i < |entries| - 1 ==> entries[..|entries| - 1][i] == entries[i];
      m[FileName(last.0) := last.1]
  }

  /** The entry a file name ends up with is the last one carrying that name. */
  lemma {:induction false} LastEntryWins(entries: seq<(string, string)>, i: nat)
    requires i < |entries|
    requires forall j :: i < j < |entries| ==> FileName(entries[j].0) != FileName(entries[i].0)
    ensures FileName(entries[i].0) in ImageMap(entries)
    ensures ImageMap(entries)[FileName(entries[i].0)] == entries[i].1
    decreases |entries|
  {
    if i < |entries| - 1 {
      var init := entries[..|entries| - 1];
      assert init[i] == entries[i];
      forall j | i < j < |init|
        ensures FileName(init[j].0) != FileName(init[i].0)
      {
        assert init[j] == entries[j];
      }
      LastEntryWins(init, i);
    }
  }

  /**
   `loadAllTextures`: every image is loaded into the cache under its file
   name. The returned flag is the promise's outcome: it resolves only when
   every image loaded; the ones that did load are cached either way.
   */
  function LoadAll<T>(images: map<string, string>, decode: string -> Option<T>): (r: (map<string, T>, bool))
    ensures forall f :: f in r.0 <==> f in images && decode(images[f]).Some?
    ensures forall f :: f in r.0 ==> r.0[f] == decode(images[f]).value
    ensures r.1 <==> forall f :: f in images ==> decode(images[f]).Some?
  {
    var cache := map f | f in images && decode(images[f]).Some? :: decode(images[f]).value;
    (cache, forall f :: f in images ==> decode(images[f]).Some?)
  }

  const Prefix: string := "assets/"

  /** The regular expression `^assets\/`: one leading `assets/` is dropped, nothing else is touched. */
  function StripAssets(path: string): (f: string)
    ensures |path| >= |Prefix| && path[..|Prefix|] == Prefix ==> path == Prefix + f
    ensures !(|path| >= |Prefix| && path[..|Prefix|] == Prefix) ==> f == path
  {
    if |path| >= |Prefix| && path[..|Prefix|] == Prefix then path[|Prefix|..] else path
  }

  /** A configuration path with the prefix and the bare file name reach the same entry; only one prefix goes. */
  lemma StripOnce(f: string)
    ensures StripAssets(Prefix + f) == f
  {
    assert (Prefix + f)[..|Prefix|] == Prefix;
  }

  /** `getTextureFromConfigPath`: the cached texture for the path's file name, or null. */
  function Lookup<T>(cache: map<string, T>, configPath: string): (r: Option<T>)
    ensures r.Some? <==> StripAssets(configPath) in cache
    ensures r.Some? ==> r.value == cache[StripAssets(configPath)]
  {
    var f := StripAssets(configPath);
    if f in cache then Some(cache[f]) else None
  }

  /** Before `loadAllTextures` the cache is empty and every lookup is null. */
  lemma NothingBeforeLoad<T>(configPath: string)
    ensures Lookup<T>(map[], configPath).None?
  {
  }

  /**
   The round trip a configuration relies on: an image bundled as `./f`,
   named in the configuration as `assets/f`, is found after loading as the
   texture of the last bundled entry with that name.
   */
  lemma ConfigPathFindsImage<T>(entries: seq<(string, string)>, decode: string -> Option<T>, i: nat, f: string)
    requires i < |entries| && entries[i].0 == "./" + f
    requires forall j :: i < j < |entries| ==> FileName(entries[j].0) != f
    requires decode(entries[i].1).Some?
    ensures Lookup(LoadAll(ImageMap(entries), decode).0, Prefix + f) == decode(entries[i].1)
  {
    assert FileName(entries[i].0) == f by {
      assert entries[i].0[2..] == f;
    }
    LastEntryWins(entries, i);
    StripOnce(f);
  }

  /** A configuration path naming no bundled file is not found. */
  lemma UnknownPathMissing<T>(entries: seq<(string, string)>, decode: string -> Option<T>, configPath: string)
    requires forall j :: 0 <= j < |entries| ==> FileName(entries[j].0) != StripAssets(configPath)
    ensures Lookup(LoadAll(ImageMap(entries), decode).0, configPath).None?
  {
  }
}

=== FILE: background.dfy ===
/**
 The tiled background (src/UI/Background.ts). `updateBounds(left, right)`
 throws the old tiles away and lays one tile per column that meets the
 visible span, then redraws the two fog strips along the background's top
 and bottom edges.
 */
module Background {
  import opened Common

  /** The fog strips are four fog heights tall. */
  const TotalOffset: real := 4.0

  datatype Config = Config(tileWidth: real, tileHeight: real, backgroundY: real, fogH: real)

  datatype Rect = Rect(x: real, y: real, w: real, h: real)

  datatype Tile = Tile(col: int, pos: Vec)

  datatype Layout = Layout(tiles: seq<Tile>, topFog: Rect, bottomFog: Rect)

  /** The result of `updateBounds`: the new layout and the tiles destroyed, in order. */
  datatype Updated = Updated(layout: Layout, destroyed: seq<Tile>)

  /** `Math.floor` */
  function Floor(x: real): int { x.Floor }

  /** The tiles for columns `from` up to, not including, `to`, at height `y`. */
  function Columns(from: int, to: int, w: real, y: real): (ts: seq<Tile>)
    ensures |ts| == if from < to then to - from else 0
    ensures forall i :: 0 <= i < |ts| ==> ts[i] == Tile(from + i, Vec((from + i) as real * w, y))
    decreases if from < to then to - from else 0
  {
    if from >= to then [] else [Tile(from, Vec(from as real * w, y))] + Columns(from + 1, to, w, y)
  }

  /** Consecutive columns sit side by side, one tile width apart. */
  lemma ColumnsAbut(from: int, to: int, w: real, y: real)
    ensures var ts := Columns(from, to, w, y);
            forall i :: 0 <= i < |ts| - 1 ==>
              ts[i + 1].col == ts[i].col + 1 && ts[i + 1].pos.x == ts[i].pos.x + w
  {
    var ts := Columns(from, to, w, y);
    forall i | 0 <= i < |ts| - 1
      ensures ts[i + 1].col == ts[i].col + 1 && ts[i + 1].pos.x == ts[i].pos.x + w
    {
      var c := (from + i) as real;
      assert (c + 1.0) * w == c * w + w;
    }
  }

  /** The fog over the background's top edge: it reaches one fog height below it. */
  function TopFog(cfg: Config, left: real, right: real): (r: Rect)
    ensures r.x == 0.0 && r.w == right - left && r.h == cfg.fogH * TotalOffset
    ensures r.y + r.h == cfg.backgroundY + cfg.fogH
  {
    Rect(0.0, cfg.backgroundY - cfg.fogH * (TotalOffset - 1.0), right - left, cfg.fogH * TotalOffset)
  }

  /** The fog over the background's bottom edge: it starts one fog height above it. */
  function BottomFog(cfg: Config, left: real, right: real): (r: Rect)
    ensures r.x == 0.0 && r.w == right - left && r.h == cfg.fogH * TotalOffset
    ensures r.y + cfg.fogH == cfg.backgroundY + cfg.tileHeight
  {
    Rect(0.0, cfg.backgroundY + cfg.tileHeight - cfg.fogH, right - left, cfg.fogH * TotalOffset)
  }

  /**
   `updateBounds`: every old tile is destroyed, then one tile is laid at
   `backgroundY` for each column from `floor(left / w)` up to, not
   including, `ceil(right / w)`, and both fog strips are redrawn.
   */
  function UpdateBounds(cfg: Config, prev: seq<Tile>, left: real, right: real): (r: Updated)
    requires cfg.tileWidth != 0.0
    ensures r.destroyed == prev
    ensures var lo := Floor(left / cfg.tileWidth);
            var hi := Ceil(right / cfg.tileWidth);
            var ts := r.layout.tiles;
            && |ts| == (if lo < hi then hi - lo else 0)
            && (forall i :: 0 <= i < |ts| ==>
                  ts[i] == Tile(lo + i, Vec((lo + i) as real * cfg.tileWidth, cfg.backgroundY)))
    ensures r.layout.topFog == TopFog(cfg, left, right) && r.layout.bottomFog == BottomFog(cfg, left, right)
  {
    var w := cfg.tileWidth;
    var ts := Columns(Floor(left / w), Ceil(right / w), w, cfg.backgroundY);
    Updated(Layout(ts, TopFog(cfg, left, right), BottomFog(cfg, left, right)), prev)
  }

  /** The new tiles run left to right without gaps: each starts where the one before it ends. */
  lemma TilesAbut(cfg: Config, prev: seq<Tile>, left: real, right: real)
    requires cfg.tileWidth != 0.0
    ensures var ts := UpdateBounds(cfg, prev, left, right).layout.tiles;
            forall i :: 0 <= i < |ts| - 1 ==>
              ts[i + 1].col == ts[i].col + 1 && ts[i + 1].pos.x == ts[i].pos.x + cfg.tileWidth
  {
    var w := cfg.tileWidth;
    ColumnsAbut(Floor(left / w), Ceil(right / w), w, cfg.backgroundY);
  }

  /**
   With a positive tile width, a column gets a tile exactly when its tile
   meets the open span from `left` to `right`.
   */
  lemma TileIffOverlaps(cfg: Config, prev: seq<Tile>, left: real, right: real, c: int)
    requires cfg.tileWidth > 0.0
    ensures var ts := UpdateBounds(cfg, prev, left, right).layout.tiles;
            (exists i :: 0 <= i < |ts| && ts[i].col == c)
            <==> c as real * cfg.tileWidth < right && (c + 1) as real * cfg.tileWidth > left
  {
    var w := cfg.tileWidth;
    var ts := UpdateBounds(cfg, prev, left, right).layout.tiles;
    var lo := Floor(left / w);
    var hi := Ceil(right / w);
    FloorBound(left, w, c);
    CeilBound(right, w, c);
    if lo <= c < hi {
      assert ts[c - lo].col == c;
    }
  }

  /** `c >= floor(x / w)` exactly when the tile of column `c` ends beyond `x`. */
  lemma FloorBound(x: real, w: real, c: int)
    requires w > 0.0
    ensures c >= Floor(x / w) <==> (c + 1) as real * w > x
  {
    var q := x / w;
    assert q * w == x;
    if c >= Floor(q) {
      assert (c + 1) as real > q;
      MulStrict(q, (c + 1) as real, w);
    } else {
      assert (c + 1) as real <= q;
      MulMonotone((c + 1) as real, q, w);
    }
  }

  /** `c < ceil(x / w)` exactly when the tile of column `c` starts before `x`. */
  lemma CeilBound(x: real, w: real, c: int)
    requires w > 0.0
    ensures c < Ceil(x / w) <==> c as real * w < x
  {
    var q := x / w;
    assert q * w == x;
    if c < Ceil(q) {
      assert c as real < q;
      MulStrict(c as real, q, w);
    } else {
      assert c as real >= q;
      MulMonotone(q, c as real, w);
    }
  }

  /**
   A span with `left < right` is covered: there is at least one tile, the
   first starts at or before `left` and the last ends at or after `right`.
   */
  lemma SpanCovered(cfg: Config, prev: seq<Tile>, left: real, right: real)
    requires cfg.tileWidth > 0.0 && left < right
    ensures var ts := UpdateBounds(cfg, prev, left, right).layout.tiles;
            && |ts| > 0
            && ts[0].pos.x <= left
            && ts[|ts| - 1].pos.x + cfg.tileWidth >= right
  {
    var w := cfg.tileWidth;
    var ts := UpdateBounds(cfg, prev, left, right).layout.tiles;
    var lo := Floor(left / w);
    var hi := Ceil(right / w);
    FloorBound(left, w, lo);
    FloorBound(left, w, lo - 1);
    CeilBound(right, w, hi);
    CeilBound(right, w, hi - 1);
    CeilBound(right, w, lo);
    assert lo < hi;
    assert ts[0].pos.x == lo as real * w;
    assert ts[|ts| - 1].pos.x == (hi - 1) as real * w;
  }
}

=== FILE: cannon.dfy ===
/**
 The aiming and firing state machine of the current cannon
 (src/Components/Cannon.ts). Pointer events arrive in screen coordinates,
 are mapped into the game container, and drive the `isDragging` and
 `isAimed` flags, the launch `power` and the barrel rotation. Releasing the
 pointer far enough from the barrel pivot fires one projectile.
 */
module Cannon {
  import opened Common

  /** The configuration values the cannon reads. Angles are in degrees. */
  datatype Config = Config(
    dragMin: real,                 // dragDistance.min
    dragMax: real,                 // dragDistance.max
    maxLaunchForce: real,
    maxLaunchForceDistance: real,
    barrelDefaultAngle: real,
    limitMin: real,                // barrelLimitAngle.min
    limitMax: real,                // barrelLimitAngle.max
    cannonPos: Vec,                // positions.cannon, the view position
    barrelLocal: Vec,              // positions.barrelLocal
    barrelPivot: Vec,              // positions.barrelPivot
    barrelWidth: real)             // textures.barrel.w, the barrel sprite width

  /** The game container: its uniform scale and its offset on screen. */
  datatype Container = Container(scale: real, offset: Vec)

  /** `rotation` is the barrel rotation in radians. */
  datatype State = State(rotation: real, power: real, isDragging: bool, isAimed: bool)

  /** A fired projectile: where it spawns and the force applied to it. */
  datatype Shot = Shot(tip: Vec, force: Vec)

  /** The outcome of a pointer-up: the new state and the shot, if one was fired. */
  datatype Released = Released(state: State, shot: Option<Shot>)

  datatype Event = Down(at: Vec) | Move(at: Vec) | Up(at: Vec)

  /** Screen coordinates to container (world) coordinates. */
  function ScreenToWorld(c: Container, screen: Vec): (w: Vec)
    requires c.scale != 0.0
    ensures w.Times(c.scale).Plus(c.offset) == screen
  {
    Vec((screen.x - c.offset.x) / c.scale, (screen.y - c.offset.y) / c.scale)
  }

  /** The barrel pivot in world coordinates: view position plus barrel position. */
  function Pivot(cfg: Config): Vec {
    cfg.cannonPos.Plus(cfg.barrelLocal)
  }

  /** The vector from the pointer to the barrel pivot. */
  function Diff(cfg: Config, pos: Vec): (d: Vec)
    ensures pos.Plus(d) == Pivot(cfg)
  {
    Pivot(cfg).Minus(pos)
  }

  function Distance(t: Trig, diff: Vec): real {
    t.hypot(diff.x, diff.y)
  }

  /** The rotation `resetCannon` gives the barrel: `angle` is in degrees. */
  function DefaultRotation(cfg: Config): real {
    -cfg.barrelDefaultAngle * Pi / 180.0
  }

  /** The configured arc in radians; the limits are negated, so min and max swap. */
  function ArcLow(cfg: Config): real { -cfg.limitMax / 180.0 * Pi }
  function ArcHigh(cfg: Config): real { -cfg.limitMin / 180.0 * Pi }

  /** `resetCannon`: default angle, no power, not aimed. Dragging is untouched. */
  function Reset(cfg: Config, s: State): (r: State)
    ensures r.power == 0.0 && !r.isAimed && r.rotation == DefaultRotation(cfg)
    ensures r.isDragging == s.isDragging
  {
    s.(rotation := DefaultRotation(cfg), power := 0.0, isAimed := false)
  }

  /** The state the constructor leaves: not dragging, and reset. */
  function Initial(cfg: Config): (s: State)
    ensures !s.isDragging && !s.isAimed && s.power == 0.0
    ensures s.rotation == DefaultRotation(cfg)
  {
    Reset(cfg, State(0.0, 0.0, false, false))
  }

  /**
   `updatePower`: the drag distance beyond `dragDistance.min`, as a fraction
   of the span up to `maxLaunchForceDistance`, capped at 1 and scaled by
   `maxLaunchForce`. When the span is zero JavaScript divides a positive
   number by zero, giving +Infinity, which the cap turns into 1.
   */
  function LaunchPower(cfg: Config, d: real): (p: real)
    requires d > cfg.dragMin
    ensures cfg.maxLaunchForceDistance > cfg.dragMin && cfg.maxLaunchForce > 0.0 ==>
              0.0 < p <= cfg.maxLaunchForce
    ensures cfg.maxLaunchForceDistance > cfg.dragMin && d >= cfg.maxLaunchForceDistance ==>
              p == cfg.maxLaunchForce
    ensures cfg.maxLaunchForceDistance > cfg.dragMin && d <= cfg.maxLaunchForceDistance ==>
              p * (cfg.maxLaunchForceDistance - cfg.dragMin) == (d - cfg.dragMin) * cfg.maxLaunchForce
    ensures cfg.maxLaunchForceDistance == cfg.dragMin ==> p == cfg.maxLaunchForce
  {
    var span := cfg.maxLaunchForceDistance - cfg.dragMin;
    var a := if span == 0.0 then 1.0 else (d - cfg.dragMin) / span;
    Min(a, 1.0) * cfg.maxLaunchForce
  }

  /** A longer drag never gives less power. */
  lemma LaunchPowerMonotone(cfg: Config, d1: real, d2: real)
    requires cfg.dragMin < d1 <= d2
    requires cfg.maxLaunchForceDistance > cfg.dragMin && cfg.maxLaunchForce >= 0.0
    ensures LaunchPower(cfg, d1) <= LaunchPower(cfg, d2)
  {
    var span := cfg.maxLaunchForceDistance - cfg.dragMin;
    var top := cfg.maxLaunchForce;
    var q1 := LaunchPower(cfg, d1);
    var q2 := LaunchPower(cfg, d2);
    if d2 <= cfg.maxLaunchForceDistance {
      assert (q2 - q1) * span == (d2 - d1) * top by {
        assert q1 * span == (d1 - cfg.dragMin) * top && q2 * span == (d2 - cfg.dragMin) * top;
      }
      MulMonotone(0.0, d2 - d1, top);
      PositiveFactor(q2 - q1, span);
    } else if d1 <= cfg.maxLaunchForceDistance {
      assert (top - q1) * span == (cfg.maxLaunchForceDistance - d1) * top by {
        assert q1 * span == (d1 - cfg.dragMin) * top;
      }
      MulMonotone(0.0, cfg.maxLaunchForceDistance - d1, top);
      PositiveFactor(top - q1, span);
    }
  }

  /** The source's single wrap: at most one whole turn is added or removed. */
  function WrapOnce(a: real): (w: real)
    ensures w == a || w == a - 2.0 * Pi || w == a + 2.0 * Pi
    ensures -3.0 * Pi <= a <= 3.0 * Pi ==> -Pi <= w <= Pi
  {
    var a1 := if a > Pi then a - 2.0 * Pi else a;
    if a1 < -Pi then a1 + 2.0 * Pi else a1
  }

  /** The usual clamp of `x` to `[lo, hi]`, the reference for `AimRotation`. */
  function Clamp(x: real, lo: real, hi: real): real
  {
    if x < lo then lo else if x > hi then hi else x
  }

  /**
   `updateAngle`: the raw pointer angle is recentred on the midpoint of the
   arc, wrapped once, clamped to the arc and shifted back.
   */
  function AimRotation(cfg: Config, raw: real): (r: real)
    ensures cfg.limitMin <= cfg.limitMax ==> ArcLow(cfg) <= r <= ArcHigh(cfg)
  {
    var lo := ArcLow(cfg);
    var hi := ArcHigh(cfg);
    var mid := (lo + hi) / 2.0;
    var angle := WrapOnce(raw - mid);
    var angle1 := Min(angle, hi - mid);
    var angle2 := Max(angle1, lo - mid);
    angle2 + mid
  }

  /**
   Against the reference: the barrel follows the wrapped pointer angle inside
   the arc and saturates at the nearer arc edge outside it.
   */
  lemma AimRotationIsClamp(cfg: Config, raw: real)
    requires cfg.limitMin <= cfg.limitMax
    ensures var mid := (ArcLow(cfg) + ArcHigh(cfg)) / 2.0;
            AimRotation(cfg, raw) == Clamp(WrapOnce(raw - mid) + mid, ArcLow(cfg), ArcHigh(cfg))
  {
  }

  /** Inside the arc, the barrel points exactly along the raw angle (up to whole turns). */
  lemma AimRotationTracksInsideArc(cfg: Config, raw: real)
    requires cfg.limitMin <= cfg.limitMax
    requires ArcLow(cfg) <= raw <= ArcHigh(cfg)
    requires -Pi <= ArcLow(cfg) && ArcHigh(cfg) <= Pi
    ensures AimRotation(cfg, raw) == raw
  {
  }

  /** Pointer position in world coordinates, then the pointer-to-pivot vector. */
  function PointerDiff(cfg: Config, c: Container, screen: Vec): Vec
    requires c.scale != 0.0
  {
    Diff(cfg, ScreenToWorld(c, screen))
  }

  /** `isAimed := true`, then `updatePower` and `updateAngle`. */
  function Aim(cfg: Config, t: Trig, s: State, diff: Vec): (r: State)
    requires Distance(t, diff) > cfg.dragMin
    ensures r.isAimed && r.isDragging == s.isDragging
    ensures r.power == LaunchPower(cfg, Distance(t, diff))
    ensures r.rotation == AimRotation(cfg, t.atan2(diff.y, diff.x))
  {
    s.(isAimed := true,
       power := LaunchPower(cfg, Distance(t, diff)),
       rotation := AimRotation(cfg, t.atan2(diff.y, diff.x)))
  }

  /** `onPointerDown`: a drag starts only strictly inside `dragDistance.max`. */
  function OnPointerDown(cfg: Config, t: Trig, c: Container, s: State, screen: Vec): (r: State)
    requires c.scale != 0.0
    ensures var d := Distance(t, PointerDiff(cfg, c, screen));
            (d < cfg.dragMax ==> r.isDragging && r.isAimed) &&
            (d >= cfg.dragMax ==> r == s)
    ensures r.power == s.power && r.rotation == s.rotation
  {
    var diff := PointerDiff(cfg, c, screen);
    if Distance(t, diff) < cfg.dragMax then s.(isDragging := true, isAimed := true) else s
  }

  /**
   `onPointerMove`: ignored unless dragging; at or inside `dragDistance.min`
   the aim is reset but the drag goes on; beyond it the cannon is aimed.
   */
  function OnPointerMove(cfg: Config, t: Trig, c: Container, s: State, screen: Vec): (r: State)
    requires c.scale != 0.0
    ensures !s.isDragging ==> r == s
    ensures var diff := PointerDiff(cfg, c, screen);
            s.isDragging && Distance(t, diff) <= cfg.dragMin ==>
              r.isDragging && !r.isAimed && r.power == 0.0 && r.rotation == DefaultRotation(cfg)
    ensures var diff := PointerDiff(cfg, c, screen);
            s.isDragging && Distance(t, diff) > cfg.dragMin ==>
              r == Aim(cfg, t, s, diff)
  {
    if !s.isDragging then s
    else
      var diff := PointerDiff(cfg, c, screen);
      if !(Distance(t, diff) > cfg.dragMin) then Reset(cfg, s)
      else Aim(cfg, t, s, diff)
  }

  /** `fireProjectile`: the tip is the pivot advanced along the barrel. */
  function BarrelTip(cfg: Config, t: Trig, rotation: real): (tip: Vec)
    ensures tip.Minus(Pivot(cfg)) == t.Polar(rotation, cfg.barrelWidth - cfg.barrelPivot.x)
  {
    Pivot(cfg).Plus(t.Polar(rotation, cfg.barrelWidth - cfg.barrelPivot.x))
  }

  /**
   `onPointerUp`: ignored unless dragging; otherwise the drag always ends, and
   exactly one projectile is fired iff the pointer is beyond
   `dragDistance.min`. The force is a tenth of the power along the clamped
   barrel rotation, and the power is spent.
   */
  function OnPointerUp(cfg: Config, t: Trig, c: Container, s: State, screen: Vec): (r: Released)
    requires c.scale != 0.0
    ensures !s.isDragging ==> r == Released(s, None)
    ensures s.isDragging ==> !r.state.isDragging && r.state.power == 0.0
    ensures var d := Distance(t, PointerDiff(cfg, c, screen));
            r.shot.Some? <==> s.isDragging && d > cfg.dragMin
    ensures var d := Distance(t, PointerDiff(cfg, c, screen));
            s.isDragging && d <= cfg.dragMin ==> r.state == Reset(cfg, s.(isDragging := false))
    ensures var diff := PointerDiff(cfg, c, screen);
            r.shot.Some? ==>
              && r.state.isAimed
              && r.state.rotation == AimRotation(cfg, t.atan2(diff.y, diff.x))
              && r.shot.value.force == t.Polar(r.state.rotation, LaunchPower(cfg, Distance(t, diff)) * 0.1)
              && r.shot.value.tip == BarrelTip(cfg, t, r.state.rotation)
  {
    if !s.isDragging then Released(s, None)
    else
      var s1 := s.(isDragging := false);
      var diff := PointerDiff(cfg, c, screen);
      if !(Distance(t, diff) > cfg.dragMin) then Released(Reset(cfg, s1), None)
      else
        var s2 := Aim(cfg, t, s1, diff);
        var force := t.Polar(s2.rotation, s2.power * 0.1);
        var tip := BarrelTip(cfg, t, s2.rotation);
        Released(s2.(power := 0.0), Some(Shot(tip, force)))
  }

  /** One pointer event; only a pointer-up can fire. */
  function Step(cfg: Config, t: Trig, c: Container, s: State, e: Event): (r: Released)
    requires c.scale != 0.0
    ensures !e.Up? ==> r.shot.None?
  {
    match e
    case Down(p) => Released(OnPointerDown(cfg, t, c, s, p), None)
    case Move(p) => Released(OnPointerMove(cfg, t, c, s, p), None)
    case Up(p) => OnPointerUp(cfg, t, c, s, p)
  }

  function CountUps(events: seq<Event>): nat
  {
    if |events| == 0 then 0
    else (if events[|events| - 1].Up? then 1 else 0) + CountUps(events[..|events| - 1])
  }

  /**
   A run of pointer events from state `s`: the final state and every shot
   fired, in order. There are never more shots than pointer-ups.
   */
  function Run(cfg: Config, t: Trig, c: Container, s: State, events: seq<Event>): (r: (State, seq<Shot>))
    requires c.scale != 0.0
    ensures |r.1| <= CountUps(events)
    decreases |events|
  {
    if |events| == 0 then (s, [])
    else
      var prev := Run(cfg, t, c, s, events[..|events| - 1]);
      var out := Step(cfg, t, c, prev.0, events[|events| - 1]);
      (out.state, prev.1 + (if out.shot.Some? then [out.shot.value] else []))
  }

  /**
   What every reachable state satisfies, given a sensible configuration:
   power lies in `[0, maxLaunchForce]`, is zero unless the cannon is both
   dragging and aimed, and the barrel is either at its default rotation or
   inside the arc.
   */
  predicate Valid(cfg: Config, s: State)
  {
    && 0.0 <= s.power <= cfg.maxLaunchForce
    && (!s.isDragging ==> s.power == 0.0)
    && (!s.isAimed ==> s.power == 0.0)
    && (s.rotation == DefaultRotation(cfg) || ArcLow(cfg) <= s.rotation <= ArcHigh(cfg))
  }

  predicate SensibleConfig(cfg: Config)
  {
    && cfg.maxLaunchForceDistance > cfg.dragMin
    && cfg.maxLaunchForce >= 0.0
    && cfg.limitMin <= cfg.limitMax
  }

  lemma InitialValid(cfg: Config)
    requires SensibleConfig(cfg)
    ensures Valid(cfg, Initial(cfg))
  {
  }

  lemma StepPreservesValid(cfg: Config, t: Trig, c: Container, s: State, e: Event)
    requires c.scale != 0.0 && SensibleConfig(cfg) && Valid(cfg, s)
    ensures Valid(cfg, Step(cfg, t, c, s, e).state)
  {
    match e
    case Down(p) =>
    case Move(p) =>
      var diff := PointerDiff(cfg, c, p);
      if s.isDragging && Distance(t, diff) > cfg.dragMin {
        assert LaunchPower(cfg, Distance(t, diff)) <= cfg.maxLaunchForce;
      }
    case Up(p) =>
  }

  /** Every state a run of pointer events reaches is valid. */
  lemma {:induction false} RunPreservesValid(cfg: Config, t: Trig, c: Container, s: State, events: seq<Event>)
    requires c.scale != 0.0 && SensibleConfig(cfg) && Valid(cfg, s)
    ensures Valid(cfg, Run(cfg, t, c, s, events).0)
    decreases |events|
  {
    if |events| > 0 {
      var prev := Run(cfg, t, c, s, events[..|events| - 1]);
      RunPreservesValid(cfg, t, c, s, events[..|events| - 1]);
      StepPreservesValid(cfg, t, c, prev.0, events[|events| - 1]);
    }
  }
}

=== FILE: common.dfy ===
/**
 Shared vocabulary of the model: the optional value, a plane vector over
 the reals, the clamps and JavaScript truncation used by several game
 files, and the transcendental functions of `Math`, which the model takes
 as a parameter instead of defining.
 */
module Common {

  datatype Option<+T> = None | Some(value: T)

  /** A world-space or screen-space point or displacement. */
  datatype Vec = Vec(x: real, y: real)
  {
    function Plus(o: Vec): Vec { Vec(x + o.x, y + o.y) }
    function Minus(o: Vec): Vec { Vec(x - o.x, y - o.y) }
    function Times(k: real): Vec { Vec(k * x, k * y) }
  }

  /** The double closest to pi, the value of `Math.PI`. */
  const Pi: real := 3.141592653589793

  /**
   The transcendental part of JavaScript's `Math`. Floating point rounding
   is abstracted away, so these are arbitrary real functions: every property
   of the model holds whatever they compute.
   */
  datatype Trig = Trig(
    cos: real -> real,
    sin: real -> real,
    atan2: (real, real) -> real,
    hypot: (real, real) -> real)
  {
    /** The unit vector `(cos a, sin a)` scaled by `len`. */
    function Polar(a: real, len: real): Vec { Vec(cos(a) * len, sin(a) * len) }
  }

  function Min(a: real, b: real): (r: real)
    ensures r <= a && r <= b
    ensures r == a || r == b
  {
    if a <= b then a else b
  }

  function Max(a: real, b: real): (r: real)
    ensures r >= a && r >= b
    ensures r == a || r == b
  {
    if a >= b then a else b
  }

  /** `Math.trunc`: rounds toward zero. */
  function Trunc(x: real): (n: int)
    ensures 0.0 <= x ==> n as real <= x < n as real + 1.0
    ensures x < 0.0 ==> n as real - 1.0 < x <= n as real
  {
    if x >= 0.0 then x.Floor else -((-x).Floor)
  }

  /** A 24-bit colour `0xRRGGBB` from its three channels. */
  function Rgb(r: int, g: int, b: int): int {
    r * 0x10000 + g * 0x100 + b
  }

  /** `Math.ceil`. */
  function Ceil(x: real): (n: int)
    ensures n as real - 1.0 < x <= n as real
  {
    -((-x).Floor)
  }

  /** Dividing by, or multiplying with, a non-negative amount keeps the order. */
  lemma DivMonotone(a: real, b: real, k: real)
    requires a <= b && k > 0.0
    ensures a / k <= b / k
  {
    assert b / k - a / k == (b - a) / k;
  }

  lemma MulMonotone(a: real, b: real, k: real)
    requires a <= b && k >= 0.0
    ensures a * k <= b * k
  {
  }

  lemma MulStrict(a: real, b: real, k: real)
    requires a < b && k > 0.0
    ensures a * k < b * k
  {
    assert b * k - a * k == (b - a) * k;
  }

  /** A non-negative product with a positive factor has a non-negative other factor. */
  lemma PositiveFactor(x: real, m: real)
    requires m > 0.0 && x * m >= 0.0
    ensures x >= 0.0
  {
  }

  /** Dividing by a positive amount: the quotient times it gives back the dividend, and keeps its sign and its order against 1. */
  lemma DivFacts(a: real, k: real)
    requires k > 0.0
    ensures (a / k) * k == a
    ensures a <= k ==> a / k <= 1.0
    ensures a >= k ==> a / k >= 1.0
    ensures a >= 0.0 ==> a / k >= 0.0
    ensures a < 0.0 ==> a / k < 0.0
  {
    var q := a / k;
    assert q * k == a;
    assert (1.0 - q) * k == k - a;
    assert (q - 1.0) * k == a - k;
    if a <= k {
      PositiveFactor(1.0 - q, k);
    }
    if a >= k {
      PositiveFactor(q - 1.0, k);
    }
    if a >= 0.0 {
      PositiveFactor(q, k);
    }
    if a < 0.0 {
      assert (-q) * k == -a;
      PositiveFactor(-q, k);
    }
  }
}

=== FILE: component_tutorial.dfy ===
/**
 The tutorial hand of src/Components/Tutorial.ts: the same ping-pong as
 the UI tutorial, but the endpoints are recomputed from the configuration
 each time the tutorial starts and are not stored.
 */
module ComponentTutorial {
  import opened Common
  import opened Tween
  import opened HandTutorial

  datatype Tutorial = Tutorial(hand: Hand, spritePos: Vec)

  /** The constructor: the hand is shown at the cannon plus `tutorialLocalStart`. */
  function Construct(cfg: Config): (t: Tutorial)
    ensures t.spritePos == cfg.cannon.Plus(cfg.localStart)
    ensures t.hand.active && t.hand.visible && t.hand.wiring.None?
  {
    Tutorial(NewHand(), StartPos(cfg))
  }

  /**
   `startTutorial`: `moveOut` (1500 ms) runs from the start to the end
   position and `moveBack` (50 ms) back, each completion starting the other;
   afterwards both are active.
   */
  function StartTutorial(cfg: Config, t: Tutorial, m: Manager, now: real): (r: (Tutorial, Manager))
    ensures r.0.hand.wiring.Some?
    ensures var w := r.0.hand.wiring.value;
            && RunsBetween(r.1, w, cfg.cannon.Plus(cfg.localStart), cfg.cannon.Plus(cfg.localEnd))
            && IsActive(r.1.tweens[w.moveOut]) && IsActive(r.1.tweens[w.moveBack])
            && r.1.tweens[w.moveOut].onComplete == StartTween(w.moveBack)
            && r.1.tweens[w.moveBack].onComplete == StartTween(w.moveOut)
            && r.1.tweens[w.moveOut].duration == DurationOut
            && r.1.tweens[w.moveBack].duration == DurationBack
    ensures AllValid(m) ==> AllValid(r.1)
  {
    var (m', w) := Wire(m, StartPos(cfg), EndPos(cfg), now);
    (t.(hand := t.hand.(wiring := Some(w))), m')
  }

  /** `stopTutorial`: acts once; both tweens end finished and the hand hidden. */
  function StopTutorial(t: Tutorial, m: Manager): (r: (Tutorial, Manager))
    ensures |r.1.tweens| == |m.tweens|
    ensures !t.hand.active ==> r == (t, m)
    ensures t.hand.active ==> !r.0.hand.active && !r.0.hand.visible
    ensures t.hand.active && t.hand.wiring.Some? ==>
              var w := t.hand.wiring.value;
              && StopsWiring(m, r.1, w)
              && (w.moveOut < |m.tweens| ==> r.1.tweens[w.moveOut].isFinished)
              && (w.moveBack < |m.tweens| ==> r.1.tweens[w.moveBack].isFinished)
    ensures t.hand.active && t.hand.wiring.None? ==> r.1 == m
  {
    var (h, m') := HandTutorial.StopTutorial(t.hand, m);
    (t.(hand := h), m')
  }

  /**
   Started, then stopped: both tweens are finished, the hand is hidden, and
   stopping again changes nothing.
   */
  lemma StartThenStop(cfg: Config, m: Manager, now: real)
    ensures var t0 := Construct(cfg);
            var (t1, m1) := StartTutorial(cfg, t0, m, now);
            var (t2, m2) := StopTutorial(t1, m1);
            var w := t1.hand.wiring.value;
            && !t2.hand.visible
            && m2.tweens[w.moveOut].isFinished && m2.tweens[w.moveBack].isFinished
            && StopTutorial(t2, m2) == (t2, m2)
  {
  }
}

=== FILE: easing.dfy ===
/**
 The polynomial easing curves of src/utils/Tween.ts. Each maps the
 progress of an animation in [0, 1] to the fraction of the way the
 animated value has travelled.
 */
module Easing {

  datatype Easing = Linear | InQuad | OutQuad | InOutQuad | InCubic | OutCubic | InOutCubic

  /**
   The curve's value at `t`. Every curve starts at 0, ends at 1 and stays
   within [0, 1] on the way; the two in-out curves are exactly halfway at
   the halfway point.
   */
  function Ease(e: Easing, t: real): (r: real)
    ensures t == 0.0 ==> r == 0.0
    ensures t == 1.0 ==> r == 1.0
    ensures 0.0 <= t <= 1.0 ==> 0.0 <= r <= 1.0
    ensures (e == InOutQuad || e == InOutCubic) && t == 0.5 ==> r == 0.5
  {
    match e
    case Linear => t
    case InQuad =>
      SquareRange(t);
      t * t
    case OutQuad =>
      OutQuadRange(t);
      t * (2.0 - t)
    case InOutQuad =>
      if t < 0.5 then
        QuadHead(t);
        2.0 * t * t
      else
        QuadTail(t);
        -1.0 + (4.0 - 2.0 * t) * t
    case InCubic =>
      CubeRange(t);
      t * t * t
    case OutCubic =>
      // `(--t) * t * t + 1`: the decrement happens before the products
      var u := t - 1.0;
      CubicTail(u);
      u * u * u + 1.0
    case InOutCubic =>
      if t < 0.5 then
        HalfCubeRange(t);
        4.0 * t * t * t
      else
        InOutCubicTail(t);
        (t - 1.0) * (2.0 * t - 2.0) * (2.0 * t - 2.0) + 1.0
  }

  /** `t (2 - t)` runs from 0 to 1 within [0, 1]. */
  lemma OutQuadRange(t: real)
    ensures 0.0 <= t <= 1.0 ==> 0.0 <= t * (2.0 - t) <= 1.0
    ensures t == 0.0 ==> t * (2.0 - t) == 0.0
    ensures t == 1.0 ==> t * (2.0 - t) == 1.0
  {
    var u := 1.0 - t;
    SquareRange(u);
    assert t * (2.0 - t) == 1.0 - u * u;
  }

  /** The first half of the in-out quadratic, `2 t^2`, stays within [0, 1/2]. */
  lemma QuadHead(t: real)
    ensures 0.0 <= t < 0.5 ==> 0.0 <= 2.0 * t * t <= 0.5
  {
    if 0.0 <= t < 0.5 {
      MulBounds(t, 0.5, t, 0.5);
    }
  }

  /** The out-cubic curve `u^3 + 1`, with `u = t - 1` in [-1, 0], runs from 0 to 1 within [0, 1]. */
  lemma CubicTail(u: real)
    ensures -1.0 <= u <= 0.0 ==> 0.0 <= u * u * u + 1.0 <= 1.0
    ensures u == -1.0 ==> u * u * u + 1.0 == 0.0
    ensures u == 0.0 ==> u * u * u + 1.0 == 1.0
  {
    CubeRange(u);
  }

  /** The second half of the in-out quadratic stays within [0, 1], from 1/2 at the middle to 1 at the end. */
  lemma QuadTail(t: real)
    ensures 0.5 <= t <= 1.0 ==> 0.0 <= -1.0 + (4.0 - 2.0 * t) * t <= 1.0
    ensures t == 0.5 ==> -1.0 + (4.0 - 2.0 * t) * t == 0.5
    ensures t == 1.0 ==> -1.0 + (4.0 - 2.0 * t) * t == 1.0
  {
    var u := 1.0 - t;
    SquareRange(u);
    assert -1.0 + (4.0 - 2.0 * t) * t == 1.0 - 2.0 * (u * u);
    if 0.5 <= t <= 1.0 {
      assert 0.0 <= u * u <= u <= 0.5;
    }
  }

  /** The second half of the in-out cubic stays within [0, 1], from 1/2 at the middle to 1 at the end. */
  lemma InOutCubicTail(t: real)
    ensures 0.5 <= t <= 1.0 ==> 0.0 <= (t - 1.0) * (2.0 * t - 2.0) * (2.0 * t - 2.0) + 1.0 <= 1.0
    ensures t == 0.5 ==> (t - 1.0) * (2.0 * t - 2.0) * (2.0 * t - 2.0) + 1.0 == 0.5
    ensures t == 1.0 ==> (t - 1.0) * (2.0 * t - 2.0) * (2.0 * t - 2.0) + 1.0 == 1.0
  {
    var u := t - 1.0;
    HalfCubeRange(u);
    assert (t - 1.0) * (2.0 * t - 2.0) * (2.0 * t - 2.0) == 4.0 * (u * u * u);
  }

  /** Products of ordered non-negative factors are ordered. */
  lemma MulBounds(a: real, b: real, c: real, d: real)
    requires 0.0 <= a <= b && 0.0 <= c <= d
    ensures 0.0 <= a * c <= b * d
  {
    assert a * c <= b * c by {
      assert (b - a) * c >= 0.0;
    }
    assert b * c <= b * d by {
      assert b * (d - c) >= 0.0;
    }
  }

  /** A square does not grow inside [0, 1]. */
  lemma SquareRange(x: real)
    ensures 0.0 <= x <= 1.0 ==> 0.0 <= x * x <= x
  {
    if 0.0 <= x <= 1.0 {
      MulBounds(x, x, x, 1.0);
    }
  }

  /** Inside [0, b] with b <= 1, a cube is non-negative and at most b cubed. */
  lemma CubeBound(x: real, b: real)
    requires 0.0 <= x <= b <= 1.0
    ensures 0.0 <= x * x * x <= b * b * b
    ensures x * x * x <= x
  {
    MulBounds(x, b, x, b);
    MulBounds(x * x, b * b, x, b);
    SquareRange(x);
    MulBounds(x * x, 1.0, x, x);
  }

  /** Inside [-1/2, 1/2] a cube keeps the sign and stays within 1/8 of zero. */
  lemma HalfCubeRange(x: real)
    ensures 0.0 <= x <= 0.5 ==> 0.0 <= x * x * x <= 0.125
    ensures -0.5 <= x <= 0.0 ==> -0.125 <= x * x * x <= 0.0
  {
    if 0.0 <= x <= 0.5 {
      CubeBound(x, 0.5);
    } else if -0.5 <= x <= 0.0 {
      CubeBound(-x, 0.5);
      assert x * x * x == -((-x) * (-x) * (-x));
    }
  }

  /** A cube keeps the sign and does not grow inside [-1, 1]. */
  lemma CubeRange(x: real)
    ensures 0.0 <= x <= 1.0 ==> 0.0 <= x * x * x <= x
    ensures -1.0 <= x <= 0.0 ==> x <= x * x * x <= 0.0
  {
    if 0.0 <= x <= 1.0 {
      CubeBound(x, 1.0);
    } else if -1.0 <= x <= 0.0 {
      var sq := x * x;
      MulBounds(-x, 1.0, -x, 1.0);
      assert 0.0 <= sq <= 1.0;
      assert (1.0 - sq) * x <= 0.0;
      assert sq * x <= 0.0;
      assert x * x * x == sq * x;
    }
  }
}

=== FILE: game_manager.dfy ===
/**
 The current game manager (src/Components/GameManager.ts): it builds the
 castle from the configured block list and the cannon, collects every
 projectile the cannon fires, drives the per-frame update, and rebuilds or
 tears everything down on `reset` and `destroy`. The cannon's own state is
 kept here too, so that pointer events can be followed through to the
 projectiles they create.
 */
module GameManager {
  import opened Common
  import opened Registry
  import Cannon

  /** The configuration the manager reads: `positions.castle`, `blocks` and the cannon's values. */
  datatype Config = Config(castle: Vec, blocks: seq<BlockData>, cannon: Cannon.Config)

  datatype Manager = Manager(
    reg: Registry,
    cannon: nat,                   // id of the cannon object
    cannonState: Cannon.State,
    projectile: Option<nat>,       // the last projectile fired
    castleBlocks: seq<nat>)        // ids of the castle blocks, in order

  /** A block entry is placed at the castle position plus `x`, minus `y` (y grows upwards in the configuration). */
  function BlockPos(castle: Vec, d: BlockData): Vec {
    Vec(d.x + castle.x, -d.y + castle.y)
  }

  /** One block kind per configured entry, in order, each keeping its entry. */
  function CastleKinds(castle: Vec, blocks: seq<BlockData>): (ks: seq<Kind>)
    ensures |ks| == |blocks|
    ensures forall i :: 0 <= i < |blocks| ==> ks[i] == Block(BlockPos(castle, blocks[i]), Some(blocks[i]))
  {
    if |blocks| == 0 then [] else [Block(BlockPos(castle, blocks[0]), Some(blocks[0]))] + CastleKinds(castle, blocks[1..])
  }

  /** Every object the manager refers to is in the set, and the set is well formed. */
  predicate WellFormed(m: Manager)
  {
    && Valid(m.reg)
    && m.cannon in Ids(m.reg.objects)
    && (m.projectile.Some? ==> m.projectile.value in Ids(m.reg.objects))
    && (forall i :: 0 <= i < |m.castleBlocks| ==> m.castleBlocks[i] in Ids(m.reg.objects))
  }

  /** `createCastle` into an empty set: one block per configured entry, in order, with ids from `nextId`. */
  function CreateCastle(cfg: Config, nextId: nat): (r: (Registry, seq<nat>))
    ensures |r.0.objects| == |cfg.blocks| && |r.1| == |cfg.blocks|
    ensures r.0.nextId == nextId + |cfg.blocks| && Valid(r.0)
    ensures forall i :: 0 <= i < |cfg.blocks| ==>
              r.1[i] == nextId + i
              && r.0.objects[i] == Obj(nextId + i, Block(BlockPos(cfg.castle, cfg.blocks[i]), Some(cfg.blocks[i])))
  {
    var ks := CastleKinds(cfg.castle, cfg.blocks);
    CreateAllEmpty(nextId, ks);
    CreateAll(Empty(nextId), ks)
  }

  /**
   `createCastle` then `createCannon` into an empty set: the castle blocks
   in order, then the cannon at its configured position in its initial
   state. No projectile.
   */
  function Build(cfg: Config, nextId: nat): (m: Manager)
    ensures |m.reg.objects| == |cfg.blocks| + 1 && |m.castleBlocks| == |cfg.blocks|
    ensures forall i :: 0 <= i < |cfg.blocks| ==>
              m.reg.objects[i] == Obj(m.castleBlocks[i], Block(BlockPos(cfg.castle, cfg.blocks[i]), Some(cfg.blocks[i])))
    ensures m.reg.objects[|cfg.blocks|] == Obj(m.cannon, Kind.Cannon(cfg.cannon.cannonPos))
    ensures forall i :: 0 <= i < |m.reg.objects| ==> m.reg.objects[i].id >= nextId
    ensures m.cannonState == Cannon.Initial(cfg.cannon) && m.projectile.None?
    ensures CountProjectiles(m.reg.objects) == 0
    ensures WellFormed(m)
  {
    var (r1, blockIds) := CreateCastle(cfg, nextId);
    var r2 := Create(r1, Kind.Cannon(cfg.cannon.cannonPos)).0;
    CannonAfterCastle(cfg, nextId);
    Manager(r2, r1.nextId, Cannon.Initial(cfg.cannon), None, blockIds)
  }

  /**
   Adding the cannon after the castle blocks: the blocks keep their places
   and ids, the cannon follows with the next id, and every id is new.
   */
  lemma CannonAfterCastle(cfg: Config, nextId: nat)
    ensures var r1 := CreateCastle(cfg, nextId).0;
            var blockIds := CreateCastle(cfg, nextId).1;
            var r2 := Create(r1, Kind.Cannon(cfg.cannon.cannonPos)).0;
            && |r2.objects| == |cfg.blocks| + 1 && Valid(r2)
            && (forall i :: 0 <= i < |cfg.blocks| ==>
                  r2.objects[i] == Obj(blockIds[i], Block(BlockPos(cfg.castle, cfg.blocks[i]), Some(cfg.blocks[i]))))
            && r2.objects[|cfg.blocks|] == Obj(r1.nextId, Kind.Cannon(cfg.cannon.cannonPos))
            && (forall i :: 0 <= i < |r2.objects| ==> r2.objects[i].id >= nextId)
            && (forall i :: 0 <= i < |blockIds| ==> blockIds[i] in Ids(r2.objects))
            && r1.nextId in Ids(r2.objects)
            && CountProjectiles(r2.objects) == 0
  {
    var r1 := CreateCastle(cfg, nextId).0;
    var blockIds := CreateCastle(cfg, nextId).1;
    var k := Kind.Cannon(cfg.cannon.cannonPos);
    CreateKeepsPrefix(r1, k);
    ListedAndNoProjectiles(r1, blockIds, k);
  }

  /** Adding an object leaves every earlier object in its place. */
  lemma CreateKeepsPrefix(r1: Registry, k: Kind)
    ensures forall i :: 0 <= i < |r1.objects| ==> Create(r1, k).0.objects[i] == r1.objects[i]
  {
    var r2 := Create(r1, k).0;
    assert r2.objects == r1.objects + [Obj(r1.nextId, k)];
  }

  /** Objects listed in order by their ids are in the set; blocks and a cannon are no projectiles. */
  lemma ListedAndNoProjectiles(r1: Registry, blockIds: seq<nat>, k: Kind)
    requires |blockIds| == |r1.objects| && k.Cannon?
    requires forall i :: 0 <= i < |blockIds| ==> r1.objects[i].id == blockIds[i] && r1.objects[i].kind.Block?
    ensures var r2 := Create(r1, k).0;
            && (forall i :: 0 <= i < |blockIds| ==> blockIds[i] in Ids(r2.objects))
            && r1.nextId in Ids(r2.objects)
            && CountProjectiles(r2.objects) == 0
  {
    var r2 := Create(r1, k).0;
    forall i | 0 <= i < |blockIds|
      ensures blockIds[i] in Ids(r2.objects)
    {
      assert r2.objects[i] == r1.objects[i];
    }
    assert r2.objects[|blockIds|].id == r1.nextId;
    NoProjectiles(r2.objects);
  }

  /** The constructor (the physics boundaries are left out). */
  function Construct(cfg: Config): (m: Manager)
    ensures WellFormed(m) && m.projectile.None? && |m.reg.objects| == |cfg.blocks| + 1
  {
    Build(cfg, 0)
  }

  /**
   `onProjectileFire`: the cannon has built the projectile at the barrel tip
   and applied the force; the manager makes it the current projectile and
   adds it to the set. The earlier projectile is not removed.
   */
  function OnProjectileFire(m: Manager, shot: Cannon.Shot): (r: (Manager, seq<Effect>))
    ensures r.0.projectile.Some?
    ensures var id := r.0.projectile.value;
            && r.0.reg.objects == m.reg.objects + [Obj(id, Projectile(shot.tip))]
            && r.1 == [ApplyForce(id, shot.force)]
            && (Valid(m.reg) ==> id !in Ids(m.reg.objects))
    ensures CountProjectiles(r.0.reg.objects) == CountProjectiles(m.reg.objects) + 1
    ensures r.0.cannon == m.cannon && r.0.castleBlocks == m.castleBlocks && r.0.cannonState == m.cannonState
    ensures WellFormed(m) ==> WellFormed(r.0)
  {
    var (reg', id) := Create(m.reg, Projectile(shot.tip));
    CountProjectilesAppend(m.reg.objects, [Obj(id, Projectile(shot.tip))]);
    assert CountProjectiles([Obj(id, Projectile(shot.tip))]) == 1;
    assert Ids(reg'.objects) == Ids(m.reg.objects) + {id} by {
      assert forall i :: 0 <= i < |m.reg.objects| ==> reg'.objects[i] == m.reg.objects[i];
      assert reg'.objects[|m.reg.objects|].id == id;
    }
    (m.(reg := reg', projectile := Some(id)), [ApplyForce(id, shot.force)])
  }

  /**
   A pointer event reaching the cannon. When it fires, the shot goes to
   `onProjectileFire`; nothing else in the manager changes.
   */
  function Handle(cfg: Config, t: Trig, c: Cannon.Container, m: Manager, e: Cannon.Event): (r: (Manager, seq<Effect>))
    requires c.scale != 0.0
    ensures var out := Cannon.Step(cfg.cannon, t, c, m.cannonState, e);
            && r.0.cannonState == out.state
            && (out.shot.None? ==> r == (m.(cannonState := out.state), []))
            && (out.shot.Some? ==> r == OnProjectileFire(m.(cannonState := out.state), out.shot.value))
  {
    var out := Cannon.Step(cfg.cannon, t, c, m.cannonState, e);
    var m1 := m.(cannonState := out.state);
    if out.shot.Some? then OnProjectileFire(m1, out.shot.value) else (m1, [])
  }

  function HandleAll(cfg: Config, t: Trig, c: Cannon.Container, m: Manager, events: seq<Cannon.Event>): Manager
    requires c.scale != 0.0
    decreases |events|
  {
    if |events| == 0 then m
    else Handle(cfg, t, c, HandleAll(cfg, t, c, m, events[..|events| - 1]), events[|events| - 1]).0
  }

  /**
   Projectiles accumulate: after any run of pointer events the set holds
   one more projectile per shot the cannon fired, the cannon is in the
   state its own run reaches, and the manager stays well formed.
   */
  lemma {:induction false} ProjectilesAccumulate(cfg: Config, t: Trig, c: Cannon.Container, m: Manager, events: seq<Cannon.Event>)
    requires c.scale != 0.0
    ensures var run := Cannon.Run(cfg.cannon, t, c, m.cannonState, events);
            var m' := HandleAll(cfg, t, c, m, events);
            && CountProjectiles(m'.reg.objects) == CountProjectiles(m.reg.objects) + |run.1|
            && m'.cannonState == run.0
            && |m'.reg.objects| == |m.reg.objects| + |run.1|
            && m'.castleBlocks == m.castleBlocks
            && (WellFormed(m) ==> WellFormed(m'))
    decreases |events|
  {
    if |events| > 0 {
      ProjectilesAccumulate(cfg, t, c, m, events[..|events| - 1]);
    }
  }

  /**
   `reset`: every object is destroyed, in set order, and the castle and
   cannon are built afresh with new ids; no projectile is left.
   */
  function Reset(cfg: Config, m: Manager): (r: (Manager, seq<Effect>))
    ensures r.1 == DestroyEach(m.reg.objects)
    ensures |r.0.reg.objects| == |cfg.blocks| + 1 && r.0.projectile.None?
    ensures CountProjectiles(r.0.reg.objects) == 0
    ensures r.0.cannonState == Cannon.Initial(cfg.cannon)
    ensures Valid(m.reg) ==>
              forall i, j :: 0 <= i < |r.0.reg.objects| && 0 <= j < |m.reg.objects| ==>
                r.0.reg.objects[i].id != m.reg.objects[j].id
    ensures WellFormed(r.0)
  {
    (Build(cfg, m.reg.nextId), DestroyEach(m.reg.objects))
  }

  /** After a reset the manager is what the constructor builds, up to the ids it hands out. */
  lemma ResetRebuilds(cfg: Config, m: Manager)
    ensures var m' := Reset(cfg, m).0;
            var built := Construct(cfg);
            && m'.cannonState == built.cannonState && m'.projectile == built.projectile
            && |m'.reg.objects| == |built.reg.objects|
            && forall i :: 0 <= i < |m'.reg.objects| ==> m'.reg.objects[i].kind == built.reg.objects[i].kind
  {
  }

  /** `destroy`: every object destroyed in set order, the set emptied, then the physics world cleared. */
  function Destroy(m: Manager): (r: (Manager, seq<Effect>))
    ensures r.0.reg.objects == [] && r.0.reg.nextId == m.reg.nextId
    ensures r.1 == DestroyEach(m.reg.objects) + [ClearWorld]
  {
    var (reg', log) := TearDown(m.reg);
    (m.(reg := reg'), log)
  }
}

=== FILE: game_overlay.dfy ===
/**
 The end-of-round overlay (src/Components/GameOverlay.ts) with the DOM
 reduced to the values the code writes into it: a visibility latch, the
 message and button texts and colours, and the panel's vertical offset in
 `vh`, animated by a tween when the overlay is shown.
 */
module GameOverlay {
  import opened Common
  import opened Easing
  import opened Tween

  datatype Outcome = Win | Lose

  datatype Overlay = Overlay(
    visible: bool,
    message: string,
    messageColor: string,
    buttonText: string,
    buttonColor: string,
    panelY: real)                  // the panel's translateY, in vh

  const SlideFrom: real := -100.0
  const SlideTo: real := 0.0
  const SlideDuration: real := 500.0

  /** The constructor: hidden, empty texts, panel above the screen (`hide()` is a no-op here). */
  function Construct(): (o: Overlay)
    ensures !o.visible && o.panelY == SlideFrom
  {
    Overlay(false, "", "", "", "", SlideFrom)
  }

  /** The message for an outcome: "YOU WON" exactly for a win, "YOU LOST" otherwise. */
  function Message(kind: Outcome): (m: string)
    ensures m == "YOU WON" <==> kind == Win
    ensures kind != Win ==> m == "YOU LOST"
  {
    assert "YOU WON"[4] != "YOU LOST"[4];
    if kind == Win then "YOU WON" else "YOU LOST"
  }

  /** The button text for an outcome: "NEXT LEVEL" exactly for a win, "TRY AGAIN" otherwise. */
  function Button(kind: Outcome): (b: string)
    ensures b == "NEXT LEVEL" <==> kind == Win
    ensures kind != Win ==> b == "TRY AGAIN"
  {
    assert "NEXT LEVEL"[0] != "TRY AGAIN"[0];
    if kind == Win then "NEXT LEVEL" else "TRY AGAIN"
  }

  /** The colour of message and button: green exactly for a win, red otherwise. */
  function Color(kind: Outcome): (c: string)
    ensures c == "#2e7d32" <==> kind == Win
    ensures kind != Win ==> c == "#c62828"
  {
    assert "#2e7d32"[1] != "#c62828"[1];
    if kind == Win then "#2e7d32" else "#c62828"
  }

  /**
   The panel slide: `y` from -100 to 0 over 500 ms of `easeInOutCubic`. Its
   callbacks start no tween of the manager; what they do to the panel is
   `FollowSlide`.
   */
  function Slide(): (tw: Tween)
    ensures Valid(tw) && tw.duration == SlideDuration && tw.easing == InOutCubic
    ensures tw.startValues == map["y" := SlideFrom] && tw.targetValues == map["y" := SlideTo]
  {
    Create({"y"}, map["y" := SlideFrom], map["y" := SlideTo], SlideDuration, InOutCubic, NoHook)
  }

  /**
   `show`: does nothing while the overlay is visible. Otherwise it becomes
   visible with the outcome's texts, both coloured by the outcome, the panel
   goes back above the screen, and exactly one slide tween is added, started.
   */
  function Show(o: Overlay, m: Manager, kind: Outcome, now: real): (r: (Overlay, Manager))
    ensures o.visible ==> r == (o, m)
    ensures !o.visible ==>
              && r.0 == Overlay(true, Message(kind), Color(kind), Button(kind), Color(kind), SlideFrom)
              && r.1.tweens == m.tweens + [Start(Slide(), now)]
    ensures r.0.visible
  {
    if o.visible then (o, m)
    else
      var o' := Overlay(true, Message(kind), Color(kind), Button(kind), Color(kind), SlideFrom);
      (o', Add(m, Slide(), now).0)
  }

  /** `hide`: does nothing while hidden; otherwise hides and moves the panel back up. */
  function Hide(o: Overlay): (r: Overlay)
    ensures !r.visible
    ensures !o.visible ==> r == o
    ensures o.visible ==> r == o.(visible := false, panelY := SlideFrom)
  {
    if !o.visible then o else o.(visible := false, panelY := SlideFrom)
  }

  /**
   The slide's two callbacks applied after one of its updates: `onUpdate`
   copies the animated `y` into the panel's offset whenever the update wrote
   values, and `onComplete` then sets the offset to 0 when the update
   completed the slide. Nothing else on the overlay changes.
   */
  function FollowSlide(o: Overlay, u: Updated): (r: Overlay)
    ensures r.(panelY := o.panelY) == o
    ensures u.writes.None? ==> r == o
    ensures u.writes.Some? && "y" in u.writes.value && !u.done ==> r.panelY == u.writes.value["y"]
    ensures u.writes.Some? && u.done ==> r.panelY == SlideTo
  {
    if u.writes.None? then o
    else
      var shown := if "y" in u.writes.value then o.(panelY := u.writes.value["y"]) else o;
      if u.done then shown.(panelY := SlideTo) else shown
  }

  /**
   While the slide runs the panel stays between its start above the screen
   and its resting place, and once the duration has passed it rests at 0.
   */
  lemma PanelFollowsSlide(o: Overlay, start: real, now: real)
    requires start <= now
    ensures var o' := FollowSlide(o, Update(Start(Slide(), start), now));
            && SlideFrom <= o'.panelY <= SlideTo
            && (now - start >= SlideDuration ==> o'.panelY == SlideTo)
  {
    var tw := Start(Slide(), start);
    var p := Progress(tw, now);
    if now - start < SlideDuration {
      assert p * SlideDuration == now - start;
      PositiveFactor(p, SlideDuration);
    }
    var e := Ease(tw.easing, p);
    var vals := Interpolate(tw, e);
    assert "y" in vals;
    assert Min(tw.startValues["y"], tw.targetValues["y"]) == SlideFrom;
  }

  /** The first outcome shown stays on screen until the overlay is hidden. */
  lemma FirstOutcomePersists(o: Overlay, m: Manager, first: Outcome, second: Outcome, t1: real, t2: real)
    requires !o.visible
    ensures var (o1, m1) := Show(o, m, first, t1);
            var (o2, m2) := Show(o1, m1, second, t2);
            o2.message == Message(first) && o2.buttonText == Button(first) && |m2.tweens| == |m.tweens| + 1
  {
  }

  /** The two outcomes are told apart by every text the overlay writes. */
  lemma OutcomesDistinct()
    ensures Message(Win) != Message(Lose)
    ensures Button(Win) != Button(Lose)
    ensures Color(Win) != Color(Lose)
  {
    assert Message(Win)[4] != Message(Lose)[4];
    assert Button(Win)[0] != Button(Lose)[0];
    assert Color(Win)[1] != Color(Lose)[1];
  }

  /** Once the slide's duration has passed, its update lands the panel at 0 and completes. */
  lemma SlideLands(start: real, now: real)
    requires now - start >= SlideDuration
    ensures Update(Start(Slide(), start), now) == Updated(Stop(Start(Slide(), start)), Some(map["y" := SlideTo]), true)
  {
  }
}

=== FILE: hand_tutorial.dfy ===
/**
 What the two tutorial classes (src/UI/Tutorial.ts and
 src/Components/Tutorial.ts) share: a hand sprite that ping-pongs between
 two positions near the cannon, driven by two tweens whose completion
 callbacks start each other, and a stop that acts once.
 */
module HandTutorial {
  import opened Common
  import opened Easing
  import opened Tween

  const DurationOut: real := 1500.0
  const DurationBack: real := 50.0

  /** The hand sprite's position object has the keys `x` and `y`. */
  const PositionKeys: set<string> := {"x", "y"}

  /** The configuration the tutorials read. */
  datatype Config = Config(cannon: Vec, localStart: Vec, localEnd: Vec)

  function StartPos(cfg: Config): Vec { cfg.localStart.Plus(cfg.cannon) }
  function EndPos(cfg: Config): Vec { cfg.localEnd.Plus(cfg.cannon) }

  /** A position as the property record a tween animates. */
  function PosRecord(p: Vec): (r: map<string, real>)
    ensures r.Keys == PositionKeys && r["x"] == p.x && r["y"] == p.y
  {
    map["x" := p.x, "y" := p.y]
  }

  /** The handles of the two tweens in the manager. */
  datatype Wiring = Wiring(moveOut: nat, moveBack: nat)

  /** The tutorial's own flags: `tutorialActive`, the hand's visibility, and the tweens once made. */
  datatype Hand = Hand(active: bool, visible: bool, wiring: Option<Wiring>)

  /** A freshly constructed tutorial: active, hand shown, no tweens yet. */
  function NewHand(): Hand { Hand(true, true, None) }

  /** The tween from `a` to `b` over `duration` whose completion starts tween `next`. */
  function Leg(a: Vec, b: Vec, duration: real, next: nat): (tw: Tween)
    requires duration > 0.0
    ensures Valid(tw) && tw.duration == duration && tw.onComplete == StartTween(next)
    ensures tw.easing == InOutCubic
    ensures tw.startValues == PosRecord(a) && tw.targetValues == PosRecord(b)
  {
    Create(PositionKeys, PosRecord(a), PosRecord(b), duration, InOutCubic, StartTween(next))
  }

  /** `moveOut` runs `a` to `b` and `moveBack` runs `b` to `a` in manager `m`. */
  predicate RunsBetween(m: Manager, w: Wiring, a: Vec, b: Vec)
  {
    && w.moveOut < |m.tweens| && w.moveBack < |m.tweens|
    && m.tweens[w.moveOut].startValues == PosRecord(a)
    && m.tweens[w.moveOut].targetValues == PosRecord(b)
    && m.tweens[w.moveBack].startValues == PosRecord(b)
    && m.tweens[w.moveBack].targetValues == PosRecord(a)
  }

  /**
   `startTutorial`'s wiring: `moveOut` (1500 ms, start to end) and
   `moveBack` (50 ms, end to start), each completing into the other, both
   added to the manager (which starts each), then `moveOut` started again.
   Both end up active; tweens already in the manager are untouched.
   */
  function Wire(m: Manager, startPos: Vec, endPos: Vec, now: real): (r: (Manager, Wiring))
    ensures var (m', w) := r;
            && |m'.tweens| == |m.tweens| + 2
            && m'.tweens[..|m.tweens|] == m.tweens
            && w == Wiring(|m.tweens|, |m.tweens| + 1)
            && IsActive(m'.tweens[w.moveOut]) && IsActive(m'.tweens[w.moveBack])
            && m'.tweens[w.moveOut].onComplete == StartTween(w.moveBack)
            && m'.tweens[w.moveBack].onComplete == StartTween(w.moveOut)
            && m'.tweens[w.moveOut].duration == DurationOut
            && m'.tweens[w.moveBack].duration == DurationBack
            && RunsBetween(m', w, startPos, endPos)
    ensures AllValid(m) ==> AllValid(r.0)
  {
    var outIx := |m.tweens|;
    var backIx := |m.tweens| + 1;
    var moveOut := Leg(startPos, endPos, DurationOut, backIx);
    var moveBack := Leg(endPos, startPos, DurationBack, outIx);
    var (m1, h1) := Add(m, moveOut, now);
    var (m2, h2) := Add(m1, moveBack, now);
    var m3 := Manager(m2.tweens[h1 := Start(m2.tweens[h1], now)]);
    (m3, Wiring(h1, h2))
  }

  /** Stops the tween with handle `h`, if the manager holds it. */
  function StopHandle(m: Manager, h: nat): (r: Manager)
    ensures |r.tweens| == |m.tweens|
    ensures h < |m.tweens| ==> r.tweens[h] == Stop(m.tweens[h])
    ensures forall j :: 0 <= j < |m.tweens| && j != h ==> r.tweens[j] == m.tweens[j]
    ensures AllValid(m) ==> AllValid(r)
  {
    if h < |m.tweens| then Manager(m.tweens[h := Stop(m.tweens[h])]) else m
  }

  /**
   Manager `r` is manager `m` with the two wired tweens stopped and every
   other tween as it was.
   */
  predicate StopsWiring(m: Manager, r: Manager, w: Wiring)
  {
    && |r.tweens| == |m.tweens|
    && forall j :: 0 <= j < |m.tweens| ==>
         r.tweens[j] == if j == w.moveOut || j == w.moveBack then Stop(m.tweens[j]) else m.tweens[j]
  }

  /**
   `stopTutorial`: only the first call acts. It clears `tutorialActive`,
   stops both tweens and hides the hand.
   */
  function StopTutorial(hand: Hand, m: Manager): (r: (Hand, Manager))
    ensures |r.1.tweens| == |m.tweens|
    ensures !hand.active ==> r == (hand, m)
    ensures hand.active ==> !r.0.active && !r.0.visible && r.0.wiring == hand.wiring
    ensures hand.active && hand.wiring.Some? ==>
              var w := hand.wiring.value;
              && StopsWiring(m, r.1, w)
              && (w.moveOut < |m.tweens| ==> r.1.tweens[w.moveOut].isFinished)
              && (w.moveBack < |m.tweens| ==> r.1.tweens[w.moveBack].isFinished)
    ensures hand.active && hand.wiring.None? ==> r.1 == m
  {
    if !hand.active then (hand, m)
    else
      var m' := if hand.wiring.Some? then
                  StopHandle(StopHandle(m, hand.wiring.value.moveOut), hand.wiring.value.moveBack)
                else m;
      (hand.(active := false, visible := false), m')
  }

  /** A second `stopTutorial` changes nothing. */
  lemma StopTutorialIdempotent(hand: Hand, m: Manager)
    ensures var (h1, m1) := StopTutorial(hand, m);
            StopTutorial(h1, m1) == (h1, m1)
  {
  }
}

=== FILE: js_bits.dfy ===
/**
 JavaScript's 32-bit integer operators on Numbers that are already whole:
 the operands are converted with ToInt32 / ToUint32 (section 7.1.6 and
 7.1.7 of ECMA-262), combined bit by bit, and the result read back as a
 signed 32-bit integer. Bitwise and and or are defined digit by digit, so
 the lemmas below are about what the operators do, not about Dafny's
 bit-vector types.
 */
module JsBits {

  const TwoTo32: int := 0x1_0000_0000
  const TwoTo31: int := 0x8000_0000

  function Pow2(k: nat): (r: nat)
    ensures r >= 1
  {
    if k == 0 then 1 else 2 * Pow2(k - 1)
  }

  lemma Pow2Values()
    ensures Pow2(7) == 0x80 && Pow2(8) == 0x100 && Pow2(16) == 0x10000
  {
    assert Pow2(4) == 0x10;
    assert Pow2(8) == 0x100;
    assert Pow2(12) == 0x1000;
  }

  /** ToUint32: the residue modulo 2^32. */
  function ToUint32(n: int): (r: int)
    ensures 0 <= r < TwoTo32 && (n - r) % TwoTo32 == 0
  {
    n % TwoTo32
  }

  /** ToInt32: the residue modulo 2^32 in [-2^31, 2^31). */
  function ToInt32(n: int): (r: int)
    ensures -TwoTo31 <= r < TwoTo31 && (n - r) % TwoTo32 == 0
    ensures -TwoTo31 <= n < TwoTo31 ==> r == n
  {
    var u := ToUint32(n);
    if u >= TwoTo31 then u - TwoTo32 else u
  }

  /** Bitwise and of two naturals, lowest bit first. */
  function BitAnd(a: nat, b: nat): nat
    decreases a
  {
    if a == 0 || b == 0 then 0
    else 2 * BitAnd(a / 2, b / 2) + (if a % 2 == 1 && b % 2 == 1 then 1 else 0)
  }

  /** Bitwise or of two naturals, lowest bit first. */
  function BitOr(a: nat, b: nat): nat
    decreases a + b
  {
    if a == 0 then b
    else if b == 0 then a
    else 2 * BitOr(a / 2, b / 2) + (if a % 2 == 1 || b % 2 == 1 then 1 else 0)
  }

  /** `a & b` */
  function And(a: int, b: int): int {
    ToInt32(BitAnd(ToUint32(a), ToUint32(b)))
  }

  /** `a | b` */
  function Or(a: int, b: int): int {
    ToInt32(BitOr(ToUint32(a), ToUint32(b)))
  }

  /** `a << s`: the shift count is taken modulo 32. */
  function Shl(a: int, s: int): int {
    ToInt32(ToInt32(a) * Pow2(ToUint32(s) % 32))
  }

  /** Bit `k` of `a`, counting from the lowest. */
  function Bit(a: nat, k: nat): (b: nat)
    ensures b <= 1
    decreases k
  {
    if k == 0 then a % 2 else Bit(a / 2, k - 1)
  }

  lemma {:induction false} BitOfZero(k: nat)
    ensures Bit(0, k) == 0
  {
    if k > 0 {
      BitOfZero(k - 1);
    }
  }

  /** Below `2^(k+1)`, bit `k` is set exactly from `2^k` on. */
  lemma {:induction false} BitHigh(v: nat, k: nat)
    requires v < 2 * Pow2(k)
    ensures Bit(v, k) == if v >= Pow2(k) then 1 else 0
  {
    if k > 0 {
      var p := Pow2(k - 1);
      assert Pow2(k) == 2 * p;
      BitHigh(v / 2, k - 1);
    }
  }

  /** Anding with a single bit keeps exactly that bit of `a`. */
  lemma {:induction false} BitAndPow2(a: nat, k: nat)
    ensures BitAnd(a, Pow2(k)) == Pow2(k) * Bit(a, k)
    decreases k
  {
    if k == 0 {
      if a != 0 {
        assert BitAnd(a / 2, 0) == 0;
      }
    } else if a == 0 {
      BitOfZero(k);
    } else {
      var p := Pow2(k - 1);
      BitAndPow2(a / 2, k - 1);
      var b := Bit(a / 2, k - 1);
      BitAndEven(a, p);
      Doubled(p, b);
      assert Pow2(k) == 2 * p;
      assert Bit(a, k) == b;
    }
  }

  /** One step of `BitAnd` against an even mask. */
  lemma BitAndEven(a: nat, p: nat)
    requires a > 0 && p >= 1
    ensures BitAnd(a, 2 * p) == 2 * BitAnd(a / 2, p)
  {
    assert (2 * p) / 2 == p && (2 * p) % 2 == 0;
  }

  lemma Doubled(p: int, b: int)
    ensures 2 * (p * b) == (2 * p) * b
  {
  }


  /** Anding with `2^k - 1` keeps the low `k` bits. */
  lemma {:induction false} BitAndLowMask(a: nat, k: nat)
    ensures BitAnd(a, Pow2(k) - 1) == a % Pow2(k)
    decreases k
  {
    if k == 0 {
    } else if a == 0 {
    } else {
      var p := Pow2(k - 1);
      assert (Pow2(k) - 1) / 2 == p - 1 && (Pow2(k) - 1) % 2 == 1;
      BitAndLowMask(a / 2, k - 1);
      ModSplit(a, p);
    }
  }

  /** Or-ing a multiple of `2^k` with a number below `2^k` adds them: the bits do not overlap. */
  lemma {:induction false} BitOrDisjoint(hi: nat, k: nat, lo: nat)
    requires lo < Pow2(k)
    ensures BitOr(hi * Pow2(k), lo) == hi * Pow2(k) + lo
    ensures BitOr(lo, hi * Pow2(k)) == hi * Pow2(k) + lo
    decreases k
  {
    if k == 0 {
    } else if hi == 0 || lo == 0 {
      BitOrZero(hi * Pow2(k));
    } else {
      var p := Pow2(k - 1);
      var h := hi * p;
      assert hi * Pow2(k) == 2 * h by {
        assert Pow2(k) == 2 * p;
      }
      assert h >= 1 by {
        AtLeastOnce(p, hi);
      }
      BitOrDisjoint(hi, k - 1, lo / 2);
      BitOrStep(h, lo);
    }
  }

  /** One step of `BitOr` between an even number and another, in both orders. */
  lemma BitOrStep(h: nat, lo: nat)
    requires h >= 1 && lo >= 1
    ensures BitOr(2 * h, lo) == 2 * BitOr(h, lo / 2) + lo % 2
    ensures BitOr(lo, 2 * h) == 2 * BitOr(lo / 2, h) + lo % 2
  {
    assert (2 * h) / 2 == h && (2 * h) % 2 == 0;
  }

  /** `v << 8` and `v << 16` multiply small naturals without overflow. */
  lemma ShlSmall(v: int)
    requires 0 <= v < 0x8000
    ensures Shl(v, 8) == v * 0x100 && Shl(v, 16) == v * 0x10000
  {
    Pow2Values();
    assert ToUint32(8) % 32 == 8 && ToUint32(16) % 32 == 16;
  }

  /** `v & ((1 << 8) - 1)` keeps a byte as it is. */
  lemma AndByteMask(v: int)
    requires 0 <= v <= 0xff
    ensures And(v, Shl(1, 8) - 1) == v
  {
    ShlSmall(1);
    Pow2Values();
    Uint32Small(v);
    Uint32Small(0xff);
    BitAndLowMask(v, 8);
    DivUnique(v, 0x100, 0, v);
  }

  /** `v & (1 << 7)` keeps only the top bit of a byte. */
  lemma AndTopBit(v: int)
    requires 0 <= v <= 0xff
    ensures And(v, Shl(1, 7)) == (if v >= 0x80 then 0x80 else 0)
  {
    ShlOneSeven();
    Uint32Small(v);
    Uint32Small(0x80);
    Pow2Values();
    BitAndPow2(v, 7);
    BitHigh(v, 7);
  }

  lemma ShlOneSeven()
    ensures Shl(1, 7) == 0x80
  {
    Pow2Values();
    Uint32Small(7);
    DivUnique(7, 32, 0, 7);
  }

  /** `0xff0000 | v << 8` puts a byte into the middle channel. */
  lemma OrMiddleByte(v: int)
    requires 0 <= v <= 0xff
    ensures Or(0xff0000, Shl(v, 8)) == 0xff0000 + v * 0x100
  {
    ShlSmall(v);
    var lo := v * 0x100;
    Pow2Values();
    assert 0 <= lo < 0x10000;
    Uint32Small(lo);
    Uint32Small(0xff0000);
    BitOrDisjoint(0xff, 16, lo);
    assert BitOr(0xff0000, lo) == 0xff0000 + lo;
  }

  /** `0x00ff00 | v << 16` puts a byte into the top channel. */
  lemma OrTopByte(v: int)
    requires 0 <= v <= 0xff
    ensures Or(0x00ff00, Shl(v, 16)) == v * 0x10000 + 0x00ff00
  {
    ShlSmall(v);
    var hi := v * 0x10000;
    Pow2Values();
    assert 0 <= hi < 0x1000000;
    Uint32Small(hi);
    Uint32Small(0xff00);
    BitOrDisjoint(v, 16, 0xff00);
    assert BitOr(0xff00, hi) == hi + 0xff00;
  }

  lemma BitOrZero(a: nat)
    ensures BitOr(a, 0) == a && BitOr(0, a) == a
  {
  }

  /** A natural below 2^32 is its own ToUint32. */
  lemma Uint32Small(n: int)
    requires 0 <= n < TwoTo32
    ensures ToUint32(n) == n
  {
    DivUnique(n, TwoTo32, 0, n);
  }

  /** The quotient and remainder of Euclidean division are unique. */
  lemma DivUnique(n: int, d: int, q: int, r: int)
    requires d > 0 && n == d * q + r && 0 <= r < d
    ensures n / d == q && n % d == r
  {
    var q0, r0 := n / d, n % d;
    assert n == d * q0 + r0 && 0 <= r0 < d;
    assert d * (q - q0) == r0 - r;
    if q > q0 {
      AtLeastOnce(d, q - q0);
    } else if q < q0 {
      AtLeastOnce(d, q0 - q);
    }
  }

  lemma AtLeastOnce(d: int, x: int)
    requires d > 0 && x >= 1
    ensures d * x >= d
  {
    assert d * x == d * (x - 1) + d;
    assert d * (x - 1) >= 0;
  }

  lemma DivDiv(a: nat, p: nat)
    requires p >= 1
    ensures (a / 2) / p == a / (2 * p)
  {
    var q := a / (2 * p);
    var r := a % (2 * p);
    assert a == (2 * p) * q + r && 0 <= r < 2 * p;
    DivUnique(a, 2, p * q + r / 2, r % 2);
    DivUnique(a / 2, p, q, r / 2);
  }

  lemma ModSplit(a: nat, p: nat)
    requires p >= 1
    ensures a % (2 * p) == 2 * ((a / 2) % p) + a % 2
  {
    var q := (a / 2) / p;
    DivDiv(a, p);
    assert a / 2 == p * q + (a / 2) % p;
    assert a == 2 * (a / 2) + a % 2;
    assert a == (2 * p) * q + (2 * ((a / 2) % p) + a % 2);
  }
}

=== FILE: legacy_cannon.dfy ===
/**
 The older cannon (src/Cannon.ts). A drag starts near the cannon sprite;
 moving aims the barrel straight at the pointer with no arc limit and sets
 the power from the distance; releasing always fires.
 */
module LegacyCannon {
  import opened Common

  /** The drag-start radius around the cannon sprite. */
  const GrabRadius: real := 60.0

  /** `rotation` is the barrel rotation in radians. */
  datatype State = State(rotation: real, power: real, isDragging: bool, dragStart: Vec)

  /** The force handed to the `onFire` callback. */
  datatype Released = Released(state: State, force: Option<Vec>)

  /** The constructor's field initialisers; the barrel starts unrotated. */
  function Initial(): (s: State)
    ensures !s.isDragging && s.power == 0.0
  {
    State(0.0, 0.0, false, Vec(0.0, 0.0))
  }

  /** `onPointerDown`: a drag starts strictly within 60 of the sprite position. */
  function OnPointerDown(t: Trig, sprite: Vec, s: State, pointer: Vec): (r: State)
    ensures var d := pointer.Minus(sprite);
            (t.hypot(d.x, d.y) < GrabRadius ==> r == s.(isDragging := true, dragStart := pointer)) &&
            (t.hypot(d.x, d.y) >= GrabRadius ==> r == s)
  {
    var d := pointer.Minus(sprite);
    if t.hypot(d.x, d.y) < GrabRadius then s.(isDragging := true, dragStart := pointer) else s
  }

  /**
   The power for a drag distance: a hundredth of it, capped at
   `maxLaunchForce` only when `window.GAME_CONFIG` exists (`cap`).
   */
  function DragPower(distance: real, cap: Option<real>): (p: real)
    ensures cap.None? ==> p * 100.0 == distance
    ensures cap.Some? ==> p <= cap.value
    ensures cap.Some? ==> p * 100.0 <= distance
    ensures cap.Some? && distance <= cap.value * 100.0 ==> p * 100.0 == distance
    ensures cap.Some? && distance >= cap.value * 100.0 ==> p == cap.value
  {
    var p := distance / 100.0;
    if cap.Some? then Min(p, cap.value) else p
  }

  /** `onPointerMove`: ignored unless dragging; aims straight at the pointer, unclamped. */
  function OnPointerMove(t: Trig, sprite: Vec, cap: Option<real>, s: State, pointer: Vec): (r: State)
    ensures !s.isDragging ==> r == s
    ensures var d := pointer.Minus(sprite);
            s.isDragging ==>
              && r.rotation == t.atan2(d.y, d.x)
              && r.power == DragPower(t.hypot(d.x, d.y), cap)
              && r.isDragging && r.dragStart == s.dragStart
  {
    if !s.isDragging then s
    else
      var d := pointer.Minus(sprite);
      s.(rotation := t.atan2(d.y, d.x), power := DragPower(t.hypot(d.x, d.y), cap))
  }

  /**
   `onPointerUp`: ignored unless dragging; otherwise the drag ends and a
   force of a tenth of the power along the barrel is fired, whatever the
   distance, and the power is spent.
   */
  function OnPointerUp(t: Trig, s: State): (r: Released)
    ensures !s.isDragging ==> r == Released(s, None)
    ensures s.isDragging ==>
              && !r.state.isDragging && r.state.power == 0.0
              && r.state.rotation == s.rotation
              && r.force == Some(t.Polar(s.rotation, s.power * 0.1))
  {
    if !s.isDragging then Released(s, None)
    else Released(s.(isDragging := false, power := 0.0), Some(t.Polar(s.rotation, s.power * 0.1)))
  }

  datatype Event = Down(at: Vec) | Move(at: Vec) | Up

  /**
   One pointer event through its listener: only pointer-up can fire, it
   fires exactly when a drag is in progress, and it always ends the drag.
   */
  function Step(t: Trig, sprite: Vec, cap: Option<real>, s: State, e: Event): (r: Released)
    ensures !e.Up? ==> r.force.None?
    ensures e.Up? ==> !r.state.isDragging && (r.force.Some? <==> s.isDragging)
    ensures e.Move? ==> r.state.isDragging == s.isDragging
  {
    match e
    case Down(p) => Released(OnPointerDown(t, sprite, s, p), None)
    case Move(p) => Released(OnPointerMove(t, sprite, cap, s, p), None)
    case Up => OnPointerUp(t, s)
  }

  /**
   Power is zero whenever no drag is in progress, and never exceeds the cap
   when there is one.
   */
  predicate Valid(cap: Option<real>, s: State)
  {
    && (!s.isDragging ==> s.power == 0.0)
    && (cap.Some? ==> s.power <= cap.value)
  }

  lemma StepPreservesValid(t: Trig, sprite: Vec, cap: Option<real>, s: State, e: Event)
    requires Valid(cap, s)
    requires cap.Some? ==> cap.value >= 0.0
    ensures Valid(cap, Step(t, sprite, cap, s, e).state)
    ensures e.Up? && s.isDragging <==> Step(t, sprite, cap, s, e).force.Some?
  {
  }

  /** Every event sequence from the initial state keeps the power invariant. */
  lemma {:induction false} RunValid(t: Trig, sprite: Vec, cap: Option<real>, s: State, events: seq<Event>)
    requires Valid(cap, s)
    requires cap.Some? ==> cap.value >= 0.0
    ensures Valid(cap, Run(t, sprite, cap, s, events))
    decreases |events|
  {
    if |events| > 0 {
      StepPreservesValid(t, sprite, cap, s, events[0]);
      RunValid(t, sprite, cap, Step(t, sprite, cap, s, events[0]).state, events[1..]);
    }
  }

  /**
   The listeners over a run of events, first to last: no drag starts
   without a pointer-down, and a run ending in a pointer-up leaves no drag.
   */
  function Run(t: Trig, sprite: Vec, cap: Option<real>, s: State, events: seq<Event>): (r: State)
    ensures !s.isDragging && (forall k :: 0 <= k < |events| ==> !events[k].Down?) ==> !r.isDragging
    ensures |events| > 0 && events[|events| - 1].Up? ==> !r.isDragging
    decreases |events|
  {
    if |events| == 0 then s
    else Run(t, sprite, cap, Step(t, sprite, cap, s, events[0]).state, events[1..])
  }
}

=== FILE: legacy_game_manager.dfy ===
/**
 The earlier game manager (src/GameManager.ts): a fixed six-block castle,
 a cannon at (100, 400), and a single live projectile, which each new shot
 replaces.
 */
module LegacyGameManager {
  import opened Common
  import opened Registry

  const BlockWidth: real := 60.0
  const BlockHeight: real := 30.0
  const StartX: real := 500.0
  const StartY: real := 500.0
  const CannonPos: Vec := Vec(100.0, 400.0)
  /** How far from the cannon's centre a projectile spawns along the barrel. */
  const BarrelLength: real := 60.0
  const ProjectileRadius: real := 12.0

  datatype Manager = Manager(
    reg: Registry,
    cannon: nat,
    projectile: Option<nat>,
    castleBlocks: seq<nat>)

  /**
   The castle as `createCastle` lays it out: three blocks on the bottom row,
   two on the middle row shifted by half a block, one on top.
   */
  function CastleLayout(): (r: seq<Vec>)
    ensures |r| == 6
  {
    seq(3, i => Vec(StartX + (i as real) * BlockWidth, StartY))
    + seq(2, i => Vec(StartX + BlockWidth / 2.0 + (i as real) * BlockWidth, StartY - BlockHeight))
    + [Vec(StartX + BlockWidth, StartY - BlockHeight * 2.0)]
  }

  /** The layout's coordinates. */
  lemma CastleLayoutIs()
    ensures CastleLayout() == [Vec(500.0, 500.0), Vec(560.0, 500.0), Vec(620.0, 500.0),
                               Vec(530.0, 470.0), Vec(590.0, 470.0), Vec(560.0, 440.0)]
  {
  }

  /**
   A pyramid: each block above the bottom row is centred on the two blocks
   it rests on, exactly one block height above them.
   */
  lemma CastleIsPyramid()
    ensures |CastleLayout()| == 6
    ensures forall i :: 0 <= i < 2 ==>
              var below := CastleLayout()[i];
              var right := CastleLayout()[i + 1];
              var above := CastleLayout()[3 + i];
              above.x == (below.x + right.x) / 2.0 && above.y == below.y - BlockHeight
    ensures var top := CastleLayout()[5];
            top.x == (CastleLayout()[3].x + CastleLayout()[4].x) / 2.0
            && top.y == CastleLayout()[3].y - BlockHeight
  {
  }

  /** A block at each position, in order. */
  function BlocksAt(ps: seq<Vec>): (ks: seq<Kind>)
    ensures |ks| == |ps| && forall i :: 0 <= i < |ps| ==> ks[i] == Block(ps[i], None)
  {
    if |ps| == 0 then [] else [Block(ps[0], None)] + BlocksAt(ps[1..])
  }

  predicate HoldsProjectile(objs: seq<Obj>, p: nat)
  {
    exists i :: 0 <= i < |objs| && objs[i].id == p && objs[i].kind.Projectile?
  }

  /**
   At most one projectile is alive, and it is the one the manager tracks:
   none when `projectile` is null, exactly that one otherwise.
   */
  predicate OneProjectile(m: Manager)
  {
    && Valid(m.reg)
    && (m.projectile.None? ==> CountProjectiles(m.reg.objects) == 0)
    && (m.projectile.Some? ==>
          CountProjectiles(m.reg.objects) == 1 && HoldsProjectile(m.reg.objects, m.projectile.value))
  }

  /**
   `createCastle` into an empty set: one block per layout position, in
   order, with ids from `nextId`.
   */
  function CreateCastle(layout: seq<Vec>, nextId: nat): (r: (Registry, seq<nat>))
    ensures |r.0.objects| == |layout| && |r.1| == |layout| && r.0.nextId == nextId + |layout| && Valid(r.0)
    ensures forall i :: 0 <= i < |layout| ==>
              r.1[i] == nextId + i && r.0.objects[i] == Obj(nextId + i, Block(layout[i], None))
  {
    var ks := BlocksAt(layout);
    CreateAllEmpty(nextId, ks);
    CreateAll(Empty(nextId), ks)
  }

  /**
   The castle blocks, then the cannon at (100, 400), into an empty set.
   The constructor and `reset` both build from `CastleLayout()`.
   */
  function Build(layout: seq<Vec>, nextId: nat): (m: Manager)
    ensures |m.reg.objects| == |layout| + 1 && |m.castleBlocks| == |layout|
    ensures forall i :: 0 <= i < |layout| ==>
              m.reg.objects[i] == Obj(m.castleBlocks[i], Block(layout[i], None))
    ensures m.reg.objects[|layout|] == Obj(m.cannon, Kind.Cannon(CannonPos))
    ensures forall i :: 0 <= i < |m.reg.objects| ==> m.reg.objects[i].id >= nextId
    ensures m.projectile.None? && OneProjectile(m)
  {
    var (r1, blockIds) := CreateCastle(layout, nextId);
    var (r2, cannonId) := Create(r1, Kind.Cannon(CannonPos));
    assert forall i :: 0 <= i < |layout| ==> r2.objects[i] == r1.objects[i];
    NoProjectiles(r2.objects);
    Manager(r2, cannonId, None, blockIds)
  }

  /** The constructor (the physics boundaries are left out). */
  function Construct(): (m: Manager)
    ensures OneProjectile(m) && m.projectile.None? && |m.reg.objects| == 7
  {
    Build(CastleLayout(), 0)
  }

  /** Where a shot spawns: 60 units from the cannon's centre along the barrel. */
  function Tip(t: Trig, rotation: real): (p: Vec)
    ensures p.Minus(CannonPos) == t.Polar(rotation, 1.0).Times(BarrelLength)
  {
    CannonPos.Plus(t.Polar(rotation, BarrelLength))
  }

  /**
   `fireProjectile`: the current projectile, if any, is destroyed and
   removed; a new one is built at the barrel tip, added, and given the
   force. All other objects stay, in order.
   */
  function FireProjectile(m: Manager, t: Trig, rotation: real, force: Vec): (r: (Manager, seq<Effect>))
    ensures r.0.projectile.Some?
    ensures var id := r.0.projectile.value;
            && |r.0.reg.objects| > 0
            && r.0.reg.objects[|r.0.reg.objects| - 1] == Obj(id, Projectile(Tip(t, rotation)))
            && r.1 == (if m.projectile.Some? then [Effect.Destroy(m.projectile.value)] else []) + [ApplyForce(id, force)]
    ensures forall o :: o in m.reg.objects && (m.projectile.None? || o.id != m.projectile.value) ==>
              o in r.0.reg.objects
    ensures OneProjectile(m) && m.projectile.Some? ==> forall o :: o in r.0.reg.objects ==> o.id != m.projectile.value
    ensures r.0.cannon == m.cannon && r.0.castleBlocks == m.castleBlocks
    ensures OneProjectile(m) ==> OneProjectile(r.0)
  {
    var kept := if m.projectile.Some? then Remove(m.reg.objects, m.projectile.value) else m.reg.objects;
    var (reg', id) := Create(m.reg.(objects := kept), Projectile(Tip(t, rotation)));
    var log := (if m.projectile.Some? then [Effect.Destroy(m.projectile.value)] else []) + [ApplyForce(id, force)];
    FireKeepsOne(m, kept, id, Projectile(Tip(t, rotation)));
    (Manager(reg', m.cannon, Some(id), m.castleBlocks), log)
  }

  /**
   Taking the tracked projectile out and appending a new one keeps exactly
   one projectile alive, the new one.
   */
  lemma FireKeepsOne(m: Manager, kept: seq<Obj>, id: nat, k: Kind)
    requires kept == if m.projectile.Some? then Remove(m.reg.objects, m.projectile.value) else m.reg.objects
    requires k.Projectile? && id == m.reg.nextId
    ensures OneProjectile(m) ==>
              OneProjectile(Manager(Registry(kept + [Obj(id, k)], m.reg.nextId + 1), m.cannon, Some(id), m.castleBlocks))
    ensures OneProjectile(m) && m.projectile.Some? ==>
              forall o :: o in kept + [Obj(id, k)] ==> o.id != m.projectile.value
  {
    if OneProjectile(m) {
      if m.projectile.Some? {
        var p := m.projectile.value;
        var i :| 0 <= i < |m.reg.objects| && m.reg.objects[i].id == p && m.reg.objects[i].kind.Projectile?;
        assert p < id;
      }
      if m.projectile.Some? {
        CountProjectilesRemove(m.reg.objects, m.projectile.value);
        RemoveValid(m.reg, m.projectile.value);
      }
      assert CountProjectiles(kept) == 0;
      CountProjectilesAppend(kept, [Obj(id, k)]);
      assert CountProjectiles([Obj(id, k)]) == 1;
      var reg' := Create(m.reg.(objects := kept), k).0;
      assert HoldsProjectile(reg'.objects, id) by {
        assert reg'.objects[|kept|] == Obj(id, k);
      }
    }
  }

  /**
   However many shots are fired, at most one projectile is ever alive.
   */
  lemma {:induction false} ShotsKeepOne(m: Manager, t: Trig, shots: seq<(real, Vec)>)
    requires OneProjectile(m)
    ensures OneProjectile(FireAll(m, t, shots))
    ensures CountProjectiles(FireAll(m, t, shots).reg.objects) <= 1
    decreases |shots|
  {
    if |shots| > 0 {
      ShotsKeepOne(m, t, shots[..|shots| - 1]);
    }
  }

  /** A run of shots, each a barrel rotation and a force. */
  function FireAll(m: Manager, t: Trig, shots: seq<(real, Vec)>): Manager
    decreases |shots|
  {
    if |shots| == 0 then m
    else
      var last := shots[|shots| - 1];
      FireProjectile(FireAll(m, t, shots[..|shots| - 1]), t, last.0, last.1).0
  }

  /** `reset`: every object destroyed in set order, then the castle and cannon rebuilt; no projectile. */
  function Reset(m: Manager): (r: (Manager, seq<Effect>))
    ensures r.1 == DestroyEach(m.reg.objects)
    ensures |r.0.reg.objects| == 7 && r.0.projectile.None? && OneProjectile(r.0)
    ensures Valid(m.reg) ==>
              forall i, j :: 0 <= i < 7 && 0 <= j < |m.reg.objects| ==>
                r.0.reg.objects[i].id != m.reg.objects[j].id
  {
    (Build(CastleLayout(), m.reg.nextId), DestroyEach(m.reg.objects))
  }

  /** `destroy`: every object destroyed in set order, the set emptied, then the physics world cleared. */
  function Destroy(m: Manager): (r: (Manager, seq<Effect>))
    ensures r.0.reg.objects == [] && r.0.reg.nextId == m.reg.nextId
    ensures r.1 == DestroyEach(m.reg.objects) + [ClearWorld]
  {
    var (reg', log) := TearDown(m.reg);
    (m.(reg := reg'), log)
  }
}

=== FILE: power_indicator.dfy ===
/**
 The launch-power bar (src/UI/PowerIndicator.ts): hidden until the cannon
 is dragged, it fills in proportion to the power, capped at `maxPower`, and
 its gradient runs from red to a colour whose green channel grows with the
 fill.
 */
module PowerIndicator {
  import opened Common
  import opened JsBits

  const Red: int := 0xff0000
  const Yellow: int := 0xffff00

  /**
   What the bar shows: its visibility, the width of the fill, and the colour
   at the right end of the fill gradient (the left end is always red).
   */
  datatype Indicator = Indicator(
    visible: bool,
    maxPower: real,                // conf.maxLaunchPower
    bgWidth: real,                 // the background's width, powerIndicatorSize.x
    fillWidth: real,
    endColor: int)

  /** The constructor: an empty fill, hidden. */
  function Construct(maxPower: real, bgWidth: real): (ind: Indicator)
    ensures !ind.visible && ind.fillWidth == 0.0
  {
    Indicator(false, maxPower, bgWidth, 0.0, Red)
  }

  /** `setVisible`: only the visibility changes. */
  function SetVisible(ind: Indicator, v: bool): (r: Indicator)
    ensures r.visible == v && r.(visible := ind.visible) == ind
  {
    ind.(visible := v)
  }

  /** The fill fraction: the power capped at the maximum, over the maximum. There is no lower cap. */
  function Percent(power: real, maxPower: real): (p: real)
    requires maxPower != 0.0
    ensures maxPower > 0.0 ==> p <= 1.0
    ensures maxPower > 0.0 && power >= maxPower ==> p == 1.0
    ensures maxPower > 0.0 && power <= maxPower ==> p * maxPower == power
    ensures maxPower > 0.0 && power < 0.0 ==> p < 0.0
  {
    var m := Min(power, maxPower);
    if maxPower > 0.0 then
      DivFacts(m, maxPower);
      m / maxPower
    else m / maxPower
  }

  /**
   The gradient's end colour: red plus the truncated fraction of 255 shifted
   into the green byte. For fractions in [0, 1] the shift cannot overflow,
   so the colour is red with that green channel, between red and yellow.
   */
  function EndColor(percent: real): (c: int)
    ensures 0.0 <= percent <= 1.0 ==>
              0 <= Trunc(percent * 255.0) <= 255 && c == Rgb(255, Trunc(percent * 255.0), 0) && Red <= c <= Yellow
  {
    var g := Trunc(percent * 255.0);
    if 0.0 <= percent <= 1.0 then
      assert percent * 255.0 <= 255.0;
      ShlSmall(g);
      Red + Shl(g, 8)
    else Red + Shl(g, 8)
  }

  /**
   The fill width: the background width times the fraction. With a positive
   maximum it never exceeds the background, is full at or beyond the
   maximum, and is proportional to the power below it; a negative power
   gives a negative width, since nothing clamps from below.
   */
  function Fill(bgWidth: real, maxPower: real, power: real): (w: real)
    requires maxPower != 0.0
    ensures maxPower > 0.0 && bgWidth >= 0.0 ==> w <= bgWidth
    ensures maxPower > 0.0 && power >= maxPower ==> w == bgWidth
    ensures maxPower > 0.0 && power <= maxPower ==> w * maxPower == bgWidth * power
    ensures maxPower > 0.0 && power < 0.0 && bgWidth > 0.0 ==> w < 0.0
  {
    var p := Percent(power, maxPower);
    if maxPower > 0.0 then
      FractionFacts(power, maxPower, bgWidth);
      bgWidth * p
    else bgWidth * p
  }

  lemma FractionFacts(power: real, maxPower: real, bgWidth: real)
    requires maxPower > 0.0
    ensures Percent(power, maxPower) <= 1.0
    ensures 0.0 <= power ==> 0.0 <= Percent(power, maxPower)
    ensures power >= maxPower ==> Percent(power, maxPower) == 1.0
    ensures power <= maxPower ==> Percent(power, maxPower) * maxPower == power
    ensures bgWidth >= 0.0 ==> bgWidth * Percent(power, maxPower) <= bgWidth
    ensures power < 0.0 && bgWidth > 0.0 ==> bgWidth * Percent(power, maxPower) < 0.0
    ensures power <= maxPower ==> bgWidth * Percent(power, maxPower) * maxPower == bgWidth * power
  {
    var m := Min(power, maxPower);
    var p := m / maxPower;
    assert Percent(power, maxPower) == p;
    DivFacts(m, maxPower);
    if power >= maxPower {
      assert m == maxPower;
    }
    if power <= maxPower {
      assert m == power;
      assert bgWidth * p * maxPower == bgWidth * (p * maxPower);
    }
    if bgWidth >= 0.0 {
      MulMonotone(p, 1.0, bgWidth);
      assert bgWidth * p == p * bgWidth;
    }
    if power < 0.0 && bgWidth > 0.0 {
      assert m == power;
      MulStrict(p, 0.0, bgWidth);
      assert bgWidth * p == p * bgWidth;
    }
  }

  /**
   `updatePower`: sets the fill and the gradient's end colour from the
   power; the visibility is left alone. At or beyond the maximum the bar is
   full and ends in yellow; for powers in between it ends in red with a
   green channel of the truncated fraction of 255.
   */
  function UpdatePower(ind: Indicator, power: real): (r: Indicator)
    requires ind.maxPower != 0.0
    ensures r.visible == ind.visible && r.maxPower == ind.maxPower && r.bgWidth == ind.bgWidth
    ensures r.fillWidth == Fill(ind.bgWidth, ind.maxPower, power)
    ensures ind.maxPower > 0.0 && power >= ind.maxPower ==> r.fillWidth == ind.bgWidth && r.endColor == Yellow
    ensures ind.maxPower > 0.0 && 0.0 <= power ==>
              Red <= r.endColor <= Yellow
              && r.endColor == Rgb(255, Trunc(Percent(power, ind.maxPower) * 255.0), 0)
  {
    var percent := Percent(power, ind.maxPower);
    var r := ind.(fillWidth := Fill(ind.bgWidth, ind.maxPower, power), endColor := EndColor(percent));
    if ind.maxPower > 0.0 then
      FractionFacts(power, ind.maxPower, ind.bgWidth);
      r
    else r
  }

  /** More power never shortens the fill. */
  lemma FillMonotone(bgWidth: real, maxPower: real, p1: real, p2: real)
    requires maxPower > 0.0 && bgWidth >= 0.0 && p1 <= p2
    ensures Fill(bgWidth, maxPower, p1) <= Fill(bgWidth, maxPower, p2)
  {
    var f1 := Fill(bgWidth, maxPower, p1);
    var f2 := Fill(bgWidth, maxPower, p2);
    if p2 < maxPower {
      assert (f2 - f1) * maxPower == bgWidth * (p2 - p1) by {
        assert f1 * maxPower == bgWidth * p1 && f2 * maxPower == bgWidth * p2;
      }
      MulMonotone(0.0, p2 - p1, bgWidth);
      assert bgWidth * (p2 - p1) >= 0.0;
      PositiveFactor(f2 - f1, maxPower);
    }
  }
}

=== FILE: registry.dfy ===
/**
 The game-object registry both game managers keep (`gameObjects`, a
 JavaScript `Set`, which iterates in insertion order). Game objects are
 abstract: an id and what was built. The physics engine, the renderer and
 the animation library are seen only through the effects a manager asks of
 them, logged in order.
 */
module Registry {
  import opened Common

  /** src/utils/Types.ts: a block placement as the configuration lists it. */
  datatype BlockData = BlockData(t: real, x: real, y: real, r: real, d: real)

  /**
   What an object is. A block records where it was placed and, for the
   configuration-driven manager, the entry it came from.
   */
  datatype Kind =
    | Block(pos: Vec, data: Option<BlockData>)
    | Cannon(pos: Vec)
    | Projectile(pos: Vec)

  datatype Obj = Obj(id: nat, kind: Kind)

  /** Requests to the collaborators the model leaves out. */
  datatype Effect =
    | EngineStep(ms: real)              // Matter.Engine.update
    | TweenTick                         // TWEEN.update of @tweenjs/tween.js
    | ObjUpdate(id: nat, dt: real)      // GameObject.update
    | Destroy(id: nat)                  // GameObject.destroy
    | ApplyForce(id: nat, force: Vec)   // Projectile.fire
    | ClearWorld                        // Matter.World.clear and Matter.Engine.clear

  /** The live objects in insertion order, and the next unused id. */
  datatype Registry = Registry(objects: seq<Obj>, nextId: nat)

  function Ids(objs: seq<Obj>): set<nat>
  {
    set i | 0 <= i < |objs| :: objs[i].id
  }

  /** No two objects share an id: the set holds each object once. */
  predicate Distinct(objs: seq<Obj>)
  {
    forall i, j :: 0 <= i < j < |objs| ==> objs[i].id != objs[j].id
  }

  /** Ids are distinct and all were handed out. */
  predicate Valid(reg: Registry)
  {
    && (forall i :: 0 <= i < |reg.objects| ==> reg.objects[i].id < reg.nextId)
    && Distinct(reg.objects)
  }

  function Empty(nextId: nat): (reg: Registry)
    ensures Valid(reg) && reg.objects == []
  {
    Registry([], nextId)
  }

  /** Builds a new object and adds it to the set; a new object is never already in it. */
  function Create(reg: Registry, k: Kind): (r: (Registry, nat))
    ensures r.1 == reg.nextId && r.0.nextId == reg.nextId + 1
    ensures r.0.objects == reg.objects + [Obj(r.1, k)]
    ensures Valid(reg) ==> Valid(r.0) && r.1 !in Ids(reg.objects)
  {
    (Registry(reg.objects + [Obj(reg.nextId, k)], reg.nextId + 1), reg.nextId)
  }

  /**
   Builds one new object per kind, in order, adding each to the set (the
   managers' `createCastle` loops). Earlier objects are untouched and the
   new ones follow them with consecutive fresh ids.
   */
  function CreateAll(reg: Registry, kinds: seq<Kind>): (r: (Registry, seq<nat>))
    ensures |r.1| == |kinds| && r.0.nextId == reg.nextId + |kinds|
    ensures |r.0.objects| == |reg.objects| + |kinds|
    ensures r.0.objects[..|reg.objects|] == reg.objects
    ensures forall i :: 0 <= i < |kinds| ==>
              r.1[i] == reg.nextId + i && r.0.objects[|reg.objects| + i] == Obj(reg.nextId + i, kinds[i])
    ensures Valid(reg) ==> Valid(r.0)
    decreases |kinds|
  {
    if |kinds| == 0 then (reg, [])
    else
      var (r1, id) := Create(reg, kinds[0]);
      var (r2, ids) := CreateAll(r1, kinds[1..]);
      (r2, [id] + ids)
  }

  /** Creating into an empty set: the objects are exactly the kinds, in order, with ids counting up from `nextId`. */
  lemma CreateAllEmpty(nextId: nat, kinds: seq<Kind>)
    ensures var r := CreateAll(Empty(nextId), kinds);
            && |r.0.objects| == |kinds| && r.0.nextId == nextId + |kinds| && Valid(r.0)
            && forall i :: 0 <= i < |kinds| ==> r.1[i] == nextId + i && r.0.objects[i] == Obj(nextId + i, kinds[i])
  {
    var r := CreateAll(Empty(nextId), kinds);
    assert |Empty(nextId).objects| == 0;
    forall i | 0 <= i < |kinds|
      ensures r.1[i] == nextId + i && r.0.objects[i] == Obj(nextId + i, kinds[i])
    {
      assert r.0.objects[0 + i] == Obj(nextId + i, kinds[i]);
    }
  }

  /** `Set.delete`: removes the object with that id, keeping the order of the rest. */
  function Remove(objs: seq<Obj>, id: nat): (r: seq<Obj>)
    ensures |r| <= |objs|
    ensures forall i :: 0 <= i < |r| ==> r[i].id != id
    ensures forall o :: o in r <==> o in objs && o.id != id
    ensures Distinct(objs) ==> Distinct(r)
  {
    if |objs| == 0 then []
    else if objs[0].id == id then Remove(objs[1..], id)
    else
      var rest := Remove(objs[1..], id);
      assert Distinct(objs) ==> forall k :: 0 <= k < |rest| ==> rest[k].id != objs[0].id by {
        if Distinct(objs) {
          forall k | 0 <= k < |rest| ensures rest[k].id != objs[0].id {
            assert rest[k] in objs[1..];
          }
        }
      }
      [objs[0]] + rest
  }

  /** Removing from a valid registry leaves it valid. */
  lemma RemoveValid(reg: Registry, id: nat)
    requires Valid(reg)
    ensures Valid(reg.(objects := Remove(reg.objects, id)))
  {
    var r := Remove(reg.objects, id);
    forall i | 0 <= i < |r| ensures r[i].id < reg.nextId {
      assert r[i] in reg.objects;
    }
  }

  /** `forEach(obj => obj.destroy())`: one destroy per object, in iteration order. */
  function DestroyEach(objs: seq<Obj>): (log: seq<Effect>)
    ensures |log| == |objs|
    ensures forall i :: 0 <= i < |objs| ==> log[i] == Destroy(objs[i].id)
  {
    if |objs| == 0 then [] else [Destroy(objs[0].id)] + DestroyEach(objs[1..])
  }

  /**
   What both managers' `destroy` does: every object destroyed in set order,
   the set emptied, then the physics world cleared; ids stay used.
   */
  function TearDown(reg: Registry): (r: (Registry, seq<Effect>))
    ensures r.0.objects == [] && r.0.nextId == reg.nextId
    ensures |r.1| == |reg.objects| + 1 && r.1[|reg.objects|] == ClearWorld
    ensures forall i :: 0 <= i < |reg.objects| ==> r.1[i] == Destroy(reg.objects[i].id)
  {
    (reg.(objects := []), DestroyEach(reg.objects) + [ClearWorld])
  }

  function UpdateEach(objs: seq<Obj>, dt: real): (log: seq<Effect>)
    ensures |log| == |objs|
    ensures forall i :: 0 <= i < |objs| ==> log[i] == ObjUpdate(objs[i].id, dt)
  {
    if |objs| == 0 then [] else [ObjUpdate(objs[0].id, dt)] + UpdateEach(objs[1..], dt)
  }

  /** The Pixi ticker's unit: one tick at 60 frames per second, in milliseconds. */
  const MsPerTick: real := 16.667

  /**
   A manager's per-frame `update`: the physics engine steps by
   `deltaTime * 16.667` ms first, then the animation library, then every
   object is updated exactly once, in set order.
   */
  function Frame(objs: seq<Obj>, dt: real): (log: seq<Effect>)
    ensures |log| == |objs| + 2
    ensures log[0] == EngineStep(dt * MsPerTick) && log[1] == TweenTick
    ensures forall i :: 0 <= i < |objs| ==> log[i + 2] == ObjUpdate(objs[i].id, dt)
  {
    [EngineStep(dt * MsPerTick), TweenTick] + UpdateEach(objs, dt)
  }

  function CountProjectiles(objs: seq<Obj>): nat
  {
    if |objs| == 0 then 0
    else (if objs[0].kind.Projectile? then 1 else 0) + CountProjectiles(objs[1..])
  }

  /** A sequence holding no projectile counts none. */
  lemma {:induction false} NoProjectiles(objs: seq<Obj>)
    requires forall i :: 0 <= i < |objs| ==> !objs[i].kind.Projectile?
    ensures CountProjectiles(objs) == 0
    decreases |objs|
  {
    if |objs| > 0 {
      NoProjectiles(objs[1..]);
    }
  }

  lemma {:induction false} CountProjectilesAppend(a: seq<Obj>, b: seq<Obj>)
    ensures CountProjectiles(a + b) == CountProjectiles(a) + CountProjectiles(b)
    decreases |a|
  {
    if |a| == 0 {
      assert a + b == b;
    } else {
      assert (a + b)[1..] == a[1..] + b;
      CountProjectilesAppend(a[1..], b);
    }
  }

  /** Removing an id that is not a projectile's keeps the count; a projectile's, lowers it by one. */
  lemma {:induction false} CountProjectilesRemove(objs: seq<Obj>, id: nat)
    requires Distinct(objs)
    ensures forall i :: 0 <= i < |objs| && objs[i].id == id && objs[i].kind.Projectile? ==>
              CountProjectiles(Remove(objs, id)) == CountProjectiles(objs) - 1
    ensures id !in Ids(objs) ==> CountProjectiles(Remove(objs, id)) == CountProjectiles(objs)
    decreases |objs|
  {
    if |objs| > 0 {
      CountProjectilesRemove(objs[1..], id);
      if objs[0].id == id {
        assert id !in Ids(objs[1..]);
        assert Remove(objs[1..], id) == objs[1..] by {
          RemoveAbsent(objs[1..], id);
        }
      } else {
        assert Ids(objs[1..]) <= Ids(objs);
        forall i | 0 <= i < |objs| && objs[i].id == id && objs[i].kind.Projectile?
          ensures CountProjectiles(Remove(objs, id)) == CountProjectiles(objs) - 1
        {
          assert objs[1..][i - 1] == objs[i];
        }
      }
    }
  }

  lemma {:induction false} RemoveAbsent(objs: seq<Obj>, id: nat)
    requires id !in Ids(objs)
    ensures Remove(objs, id) == objs
    decreases |objs|
  {
    if |objs| > 0 {
      assert objs[0].id in Ids(objs);
      assert Ids(objs[1..]) <= Ids(objs);
      RemoveAbsent(objs[1..], id);
    }
  }
}

=== FILE: tween.dfy ===
/**
 The tween of src/utils/Tween.ts: a state machine over the flags
 `isPaused` and `isFinished` and a start time, interpolating a record of
 numeric properties from start values to target values, and the manager
 that starts and ticks a list of tweens.

 Tweens are shared in the source: the tutorial and the manager hold the
 same object. Here the manager is an arena, `seq<Tween>`, and everyone else
 refers to a tween by its index in it. The clock (`performance.now()`) is
 a parameter `now` of every operation that reads it.
 */
module Tween {
  import opened Common
  import opened Easing

  /**
   The `onComplete` callbacks the program installs: none, or starting
   another tween of the same manager.
   */
  datatype Hook = NoHook | StartTween(handle: nat)

  datatype Tween = Tween(
    startTime: real,
    pausedTime: real,
    isPaused: bool,
    isFinished: bool,
    startValues: map<string, real>,
    targetValues: map<string, real>,
    duration: real,
    easing: Easing,
    onComplete: Hook)

  /** Every animated key has a start value, and the duration is positive. */
  predicate Valid(tw: Tween)
  {
    tw.duration > 0.0 && tw.targetValues.Keys <= tw.startValues.Keys
  }

  /**
   The constructor: only keys of `start` that the target object has are
   animated, from their `start` value to their `end` value. A fresh tween is
   neither paused nor finished.
   */
  function Create(targetKeys: set<string>, start: map<string, real>, end: map<string, real>,
                  duration: real, easing: Easing, onComplete: Hook): (tw: Tween)
    requires duration > 0.0
    requires start.Keys * targetKeys <= end.Keys
    ensures Valid(tw)
    ensures tw.startValues.Keys == tw.targetValues.Keys == start.Keys * targetKeys
    ensures forall k :: k in tw.startValues ==> tw.startValues[k] == start[k] && tw.targetValues[k] == end[k]
    ensures !tw.isPaused && !tw.isFinished
    ensures tw.duration == duration && tw.easing == easing && tw.onComplete == onComplete
  {
    var keys := start.Keys * targetKeys;
    Tween(0.0, 0.0, false, false,
          map k | k in keys :: start[k],
          map k | k in keys :: end[k],
          duration, easing, onComplete)
  }

  /** `isActive`. */
  predicate IsActive(tw: Tween)
  {
    !tw.isFinished && !tw.isPaused
  }

  /** `start`: restarts the clock and clears both flags. */
  function Start(tw: Tween, now: real): (r: Tween)
    ensures IsActive(r) && r.startTime == now
    ensures r.(startTime := tw.startTime, isFinished := tw.isFinished, isPaused := tw.isPaused) == tw
  {
    tw.(startTime := now, isFinished := false, isPaused := false)
  }

  /** `pause`: acts only on an active tween, remembering when it paused. */
  function Pause(tw: Tween, now: real): (r: Tween)
    ensures IsActive(tw) ==> r == tw.(isPaused := true, pausedTime := now)
    ensures !IsActive(tw) ==> r == tw
    ensures !IsActive(r)
  {
    if !tw.isFinished && !tw.isPaused then tw.(isPaused := true, pausedTime := now) else tw
  }

  /** `resume`: acts only on a paused tween, pushing the start time past the pause. */
  function Resume(tw: Tween, now: real): (r: Tween)
    ensures tw.isPaused ==> !r.isPaused && r.isFinished == tw.isFinished
    ensures tw.isPaused ==> r.startTime - tw.startTime == now - tw.pausedTime
    ensures tw.isPaused ==> r.(startTime := tw.startTime, isPaused := true) == tw
    ensures !tw.isPaused ==> r == tw
  {
    if tw.isPaused then
      tw.(startTime := tw.startTime + (now - tw.pausedTime), isPaused := false)
    else tw
  }

  /** `stop`: finishes the tween at once. */
  function Stop(tw: Tween): (r: Tween)
    ensures !IsActive(r) && r.isFinished
    ensures r.(isFinished := tw.isFinished) == tw
  {
    tw.(isFinished := true)
  }

  /** Progress at `now`: elapsed time over duration, capped at 1 (not below). */
  function Progress(tw: Tween, now: real): (p: real)
    requires tw.duration > 0.0
    ensures p <= 1.0
    ensures p == 1.0 <==> now - tw.startTime >= tw.duration
    ensures now - tw.startTime < tw.duration ==> p * tw.duration == now - tw.startTime
  {
    Min((now - tw.startTime) / tw.duration, 1.0)
  }

  /**
   The value of every animated key at eased fraction `e`: the start value
   moved the fraction `e` of the way to the target, so for `e` in [0, 1]
   it lies between the two.
   */
  function Interpolate(tw: Tween, e: real): (vals: map<string, real>)
    requires tw.targetValues.Keys <= tw.startValues.Keys
    ensures vals.Keys == tw.targetValues.Keys
    ensures e == 0.0 ==> forall k :: k in vals ==> vals[k] == tw.startValues[k]
    ensures e == 1.0 ==> vals == tw.targetValues
    ensures forall k :: k in vals ==>
              vals[k] - tw.startValues[k] == (tw.targetValues[k] - tw.startValues[k]) * e
    ensures 0.0 <= e <= 1.0 ==> forall k :: k in vals ==>
              Min(tw.startValues[k], tw.targetValues[k]) <= vals[k] <= Max(tw.startValues[k], tw.targetValues[k])
  {
    var vals := map k | k in tw.targetValues :: tw.startValues[k] + (tw.targetValues[k] - tw.startValues[k]) * e;
    forall k | k in vals && 0.0 <= e <= 1.0
      ensures Min(tw.startValues[k], tw.targetValues[k]) <= vals[k] <= Max(tw.startValues[k], tw.targetValues[k])
    {
      LerpBetween(tw.startValues[k], tw.targetValues[k], e);
    }
    vals
  }

  /** A point a fraction in [0, 1] of the way from `a` to `b` lies between them. */
  lemma LerpBetween(a: real, b: real, e: real)
    requires 0.0 <= e <= 1.0
    ensures Min(a, b) <= a + (b - a) * e <= Max(a, b)
  {
    var v := a + (b - a) * e;
    if a <= b {
      LerpUp(a, b, e, v);
    } else {
      LerpUp(b, a, 1.0 - e, v);
    }
  }

  /** The same, going up from `a` to `b`; `v` is the point from either end. */
  lemma LerpUp(a: real, b: real, e: real, v: real)
    requires a <= b && 0.0 <= e <= 1.0
    requires v == a + (b - a) * e || v == b + (a - b) * (1.0 - e)
    ensures a <= v <= b
  {
    var d := b - a;
    assert b + (a - b) * (1.0 - e) == a + d * e;
    assert (b - a) * e == d * e;
    assert d - d * e == d * (1.0 - e);
    MulMonotone(0.0, e, d);
    MulMonotone(0.0, 1.0 - e, d);
  }

  /**
   The result of `update`: the tween afterwards, the property values written
   to the target (`None` when nothing is written and no callback runs), and
   the returned flag, true exactly when this update completed the tween and
   `onComplete` ran.
   */
  datatype Updated = Updated(tween: Tween, writes: Option<map<string, real>>, done: bool)

  /**
   `update`: a finished or paused tween writes nothing and returns false.
   Otherwise every animated key gets its eased value; the update whose
   progress reaches 1 lands every key exactly on its target, finishes the
   tween and returns true.
   */
  function Update(tw: Tween, now: real): (r: Updated)
    requires Valid(tw)
    ensures !IsActive(tw) ==> r == Updated(tw, None, false)
    ensures IsActive(tw) ==>
              r.writes == Some(Interpolate(tw, Ease(tw.easing, Progress(tw, now))))
    ensures r.done <==> IsActive(tw) && now - tw.startTime >= tw.duration
    ensures r.done ==> r.writes == Some(tw.targetValues) && r.tween == Stop(tw)
    ensures !r.done ==> r.tween == tw
    ensures Valid(r.tween)
  {
    if tw.isFinished || tw.isPaused then Updated(tw, None, false)
    else
      var p := Progress(tw, now);
      var writes := Interpolate(tw, Ease(tw.easing, p));
      if p >= 1.0 then Updated(tw.(isFinished := true), Some(writes), true)
      else Updated(tw, Some(writes), false)
  }

  /** Completion happens once: after the completing update, updates do nothing until `Start`. */
  lemma CompletesOnce(tw: Tween, now: real, later: real)
    requires Valid(tw)
    requires Update(tw, now).done
    ensures Update(Update(tw, now).tween, later) == Updated(Update(tw, now).tween, None, false)
  {
  }

  /** A stopped tween stays inert until it is started again, and then it is active. */
  lemma StopThenStart(tw: Tween, now: real, later: real)
    requires Valid(tw)
    ensures Update(Stop(tw), now) == Updated(Stop(tw), None, false)
    ensures IsActive(Start(Stop(tw), later))
  {
  }

  /**
   A pause does not consume animation time: after pausing at `p` and
   resuming at `q`, the tween at `now` is as far along as it was at
   `now - (q - p)` without the pause.
   */
  lemma PauseResumeKeepsProgress(tw: Tween, p: real, q: real, now: real)
    requires Valid(tw) && IsActive(tw)
    ensures var r := Resume(Pause(tw, p), q);
            IsActive(r) && Progress(r, now) == Progress(tw, now - (q - p))
  {
  }

  /** While paused, updates write nothing and change nothing. */
  lemma PausedIsFrozen(tw: Tween, p: real, now: real)
    requires Valid(tw)
    ensures Update(Pause(tw, p), now).writes == None
    ensures Update(Pause(tw, p), now).tween == Pause(tw, p)
  {
  }

  // ---------------------------------------------------------------------
  // TweenManager

  datatype Manager = Manager(tweens: seq<Tween>)

  predicate AllValid(m: Manager)
  {
    forall i :: 0 <= i < |m.tweens| ==> Valid(m.tweens[i])
  }

  function Empty(): Manager { Manager([]) }

  /** `add`: appends the tween and starts it; its handle is its index. */
  function Add(m: Manager, tw: Tween, now: real): (r: (Manager, nat))
    ensures r.1 == |m.tweens| && |r.0.tweens| == |m.tweens| + 1
    ensures r.0.tweens[..|m.tweens|] == m.tweens
    ensures r.0.tweens[r.1] == Start(tw, now)
    ensures Valid(tw) && AllValid(m) ==> AllValid(r.0)
  {
    (Manager(m.tweens + [Start(tw, now)]), |m.tweens|)
  }

  /** `removeAll`: every tween is stopped, then the list is emptied. */
  function RemoveAll(m: Manager): (r: (Manager, seq<Tween>))
    ensures r.0.tweens == []
    ensures |r.1| == |m.tweens|
    ensures forall i :: 0 <= i < |r.1| ==> r.1[i].isFinished && r.1[i] == Stop(m.tweens[i])
  {
    (Empty(), seq(|m.tweens|, i requires 0 <= i < |m.tweens| => Stop(m.tweens[i])))
  }

  /** What one manager tick did: the tweens afterwards, the writes in order, the completions in order. */
  datatype Tick = Tick(tweens: seq<Tween>, writes: seq<(nat, map<string, real>)>, completed: seq<nat>)

  /** Runs a completion hook: starting a tween of this manager at `now`. */
  function RunHook(ts: seq<Tween>, h: Hook, now: real): (r: seq<Tween>)
    ensures |r| == |ts|
    ensures forall j :: 0 <= j < |ts| ==>
              && r[j].onComplete == ts[j].onComplete
              && (Valid(ts[j]) ==> Valid(r[j]))
              && (FreshAt(ts[j], now) ==> FreshAt(r[j], now))
    ensures h.StartTween? && h.handle < |ts| && ts[h.handle].duration > 0.0 ==>
              FreshAt(r[h.handle], now)
    ensures forall j :: 0 <= j < |ts| && h != StartTween(j) ==> r[j] == ts[j]
  {
    match h
    case NoHook => ts
    case StartTween(j) => if j < |ts| then ts[j := Start(ts[j], now)] else ts
  }

  /** No tween of `ts` has a completion hook that starts tween `j`. */
  predicate Unhooked(ts: seq<Tween>, j: nat)
  {
    forall a :: 0 <= a < |ts| ==> ts[a].onComplete != StartTween(j)
  }

  /**
   The tweens after tween `i`'s turn in a pass: its update applied and, when
   that update completes it, its hook run. Only tween `i` and the tween its
   hook names can change; a tween started at `now` stays so, and a completion
   leaves the hooked tween started at `now`.
   */
  function Turn(ts: seq<Tween>, i: nat, now: real): (r: seq<Tween>)
    requires i < |ts|
    requires forall j :: 0 <= j < |ts| ==> Valid(ts[j])
    ensures |r| == |ts|
    ensures forall j :: 0 <= j < |ts| ==> Valid(r[j]) && r[j].onComplete == ts[j].onComplete
    ensures forall j :: 0 <= j < |ts| && j != i && ts[i].onComplete != StartTween(j) ==> r[j] == ts[j]
    ensures ts[i].onComplete != StartTween(i) ==> r[i] == Update(ts[i], now).tween
    ensures forall j :: 0 <= j < |ts| && FreshAt(ts[j], now) ==> FreshAt(r[j], now)
    ensures Update(ts[i], now).done && ts[i].onComplete.StartTween? && ts[i].onComplete.handle < |ts| ==>
              FreshAt(r[ts[i].onComplete.handle], now)
  {
    var u := Update(ts[i], now);
    var ts1 := ts[i := u.tween];
    if u.done then RunHook(ts1, ts[i].onComplete, now) else ts1
  }

  /** Tweens `i..` of one `update` pass, in list order, each completion running its hook at once. */
  function UpdateFrom(ts: seq<Tween>, i: nat, now: real): (r: Tick)
    requires i <= |ts|
    requires forall j :: 0 <= j < |ts| ==> Valid(ts[j])
    ensures |r.tweens| == |ts|
    ensures forall j :: 0 <= j < |ts| ==> Valid(r.tweens[j])
    ensures forall j :: 0 <= j < |ts| ==> r.tweens[j].onComplete == ts[j].onComplete
    ensures forall j :: 0 <= j < |r.completed| ==> i <= r.completed[j] < |ts|
    ensures forall k :: 0 <= k < |r.writes| ==> i <= r.writes[k].0 < |ts|
    ensures i == |ts| ==> r.completed == [] && r.writes == []
    decreases |ts| - i
  {
    if i == |ts| then Tick(ts, [], [])
    else
      var u := Update(ts[i], now);
      var rest := UpdateFrom(Turn(ts, i, now), i + 1, now);
      var w := if u.writes.Some? then [(i, u.writes.value)] else [];
      Tick(rest.tweens, w + rest.writes, (if u.done then [i] else []) + rest.completed)
  }

  /**
   A tween that no hook starts is updated exactly once in a pass, at its
   own turn: if its turn is still to come it ends as its own `Update` leaves
   it, is reported completed exactly when that update completes it, and the
   pass writes exactly that update's values for it; if its turn is past it
   is left alone.
   */
  lemma UpdateFromTicksOnce(ts: seq<Tween>, i: nat, now: real, j: nat)
    requires i <= |ts| && j < |ts|
    requires forall a :: 0 <= a < |ts| ==> Valid(ts[a])
    requires Unhooked(ts, j)
    ensures var r := UpdateFrom(ts, i, now);
            r.tweens[j] == if j < i then ts[j] else Update(ts[j], now).tween
    ensures var r := UpdateFrom(ts, i, now);
            i <= j ==>
              && (j in r.completed <==> Update(ts[j], now).done)
              && (Update(ts[j], now).writes.Some? ==> (j, Update(ts[j], now).writes.value) in r.writes)
              && (forall k :: 0 <= k < |r.writes| && r.writes[k].0 == j ==>
                    Some(r.writes[k].1) == Update(ts[j], now).writes)
  {
    UpdateFromLeavesOnce(ts, i, now, j);
    if i <= j {
      UpdateFromCompletesOnce(ts, i, now, j);
      UpdateFromWritesOnce(ts, i, now, j);
    }
  }

  /** The tween part: an unhooked tween ends as its own turn's update leaves it. */
  lemma {:induction false} UpdateFromLeavesOnce(ts: seq<Tween>, i: nat, now: real, j: nat)
    requires i <= |ts| && j < |ts|
    requires forall a :: 0 <= a < |ts| ==> Valid(ts[a])
    requires Unhooked(ts, j)
    ensures UpdateFrom(ts, i, now).tweens[j] == if j < i then ts[j] else Update(ts[j], now).tween
    decreases |ts| - i
  {
    if i < |ts| {
      assert UpdateFrom(ts, i, now).tweens == UpdateFrom(Turn(ts, i, now), i + 1, now).tweens;
      TurnFrame(ts, i, now, j);
      UpdateFromLeavesOnce(Turn(ts, i, now), i + 1, now, j);
    }
  }

  /** The completion part: an unhooked tween is reported completed exactly when its own update completes it. */
  lemma {:induction false} UpdateFromCompletesOnce(ts: seq<Tween>, i: nat, now: real, j: nat)
    requires i <= j < |ts|
    requires forall a :: 0 <= a < |ts| ==> Valid(ts[a])
    requires Unhooked(ts, j)
    ensures j in UpdateFrom(ts, i, now).completed <==> Update(ts[j], now).done
    decreases |ts| - i
  {
    var u := Update(ts[i], now);
    var rest := UpdateFrom(Turn(ts, i, now), i + 1, now);
    assert UpdateFrom(ts, i, now).completed == (if u.done then [i] else []) + rest.completed;
    TurnFrame(ts, i, now, j);
    if i < j {
      UpdateFromCompletesOnce(Turn(ts, i, now), i + 1, now, j);
    }
  }

  /** The write part: an unhooked tween's writes in the pass are exactly its own update's. */
  lemma {:induction false} UpdateFromWritesOnce(ts: seq<Tween>, i: nat, now: real, j: nat)
    requires i <= j < |ts|
    requires forall a :: 0 <= a < |ts| ==> Valid(ts[a])
    requires Unhooked(ts, j)
    ensures Update(ts[j], now).writes.Some? ==>
              (j, Update(ts[j], now).writes.value) in UpdateFrom(ts, i, now).writes
    ensures forall k :: 0 <= k < |UpdateFrom(ts, i, now).writes| && UpdateFrom(ts, i, now).writes[k].0 == j ==>
              Some(UpdateFrom(ts, i, now).writes[k].1) == Update(ts[j], now).writes
    decreases |ts| - i
  {
    var u := Update(ts[i], now);
    var ts2 := Turn(ts, i, now);
    var rest := UpdateFrom(ts2, i + 1, now);
    var w := if u.writes.Some? then [(i, u.writes.value)] else [];
    assert UpdateFrom(ts, i, now).writes == w + rest.writes;
    TurnFrame(ts, i, now, j);
    if i < j {
      UpdateFromWritesOnce(ts2, i + 1, now, j);
    }
    WritesFor(w, rest.writes, i, j, Update(ts[j], now).writes);
  }

  /** Tween `i`'s turn changes no tween that no hook starts, other than tween `i` itself. */
  lemma TurnFrame(ts: seq<Tween>, i: nat, now: real, j: nat)
    requires i < |ts| && j < |ts|
    requires forall a :: 0 <= a < |ts| ==> Valid(ts[a])
    requires Unhooked(ts, j)
    ensures Turn(ts, i, now)[j] == if j == i then Update(ts[i], now).tween else ts[j]
    ensures Unhooked(Turn(ts, i, now), j)
  {
    var ts2 := Turn(ts, i, now);
    assert ts[i].onComplete != StartTween(j);
    forall a | 0 <= a < |ts2|
      ensures ts2[a].onComplete != StartTween(j)
    {
      assert ts2[a].onComplete == ts[a].onComplete;
    }
  }

  /**
   The writes of a turn followed by the writes of the rest of the pass: when
   the rest writes tween `j` only with `v`, the turn writes tween `i`, and
   `w` holds `v` when `i` is `j`, every write of `j` in the whole is `v`.
   */
  lemma WritesFor(w: seq<(nat, map<string, real>)>, rest: seq<(nat, map<string, real>)>, i: nat, j: nat,
                  v: Option<map<string, real>>)
    requires forall k :: 0 <= k < |w| ==> w[k].0 == i
    requires i == j ==> forall k :: 0 <= k < |w| ==> Some(w[k].1) == v
    requires forall k :: 0 <= k < |rest| && rest[k].0 == j ==> Some(rest[k].1) == v
    ensures forall k :: 0 <= k < |w + rest| && (w + rest)[k].0 == j ==> Some((w + rest)[k].1) == v
  {
    forall k | 0 <= k < |w + rest| && (w + rest)[k].0 == j
      ensures Some((w + rest)[k].1) == v
    {
      if k >= |w| {
        assert (w + rest)[k] == rest[k - |w|];
      }
    }
  }

  /**
   `update`: ticks every tween once, in order, removing none. A tween that
   no hook starts ends as its own `Update` at `now` leaves it, completes
   exactly when that update does, and gets exactly that update's writes.
   */
  function UpdateAll(m: Manager, now: real): (r: (Manager, Tick))
    requires AllValid(m)
    ensures |r.0.tweens| == |m.tweens| && AllValid(r.0)
    ensures r.0.tweens == r.1.tweens
    ensures forall j: nat :: j < |m.tweens| && Unhooked(m.tweens, j) ==>
              && r.0.tweens[j] == Update(m.tweens[j], now).tween
              && (j in r.1.completed <==> Update(m.tweens[j], now).done)
              && (Update(m.tweens[j], now).writes.Some? ==> (j, Update(m.tweens[j], now).writes.value) in r.1.writes)
              && (forall k :: 0 <= k < |r.1.writes| && r.1.writes[k].0 == j ==>
                    Some(r.1.writes[k].1) == Update(m.tweens[j], now).writes)
  {
    var t := UpdateFrom(m.tweens, 0, now);
    forall j: nat | j < |m.tweens| && Unhooked(m.tweens, j)
      ensures t.tweens[j] == Update(m.tweens[j], now).tween
      ensures j in t.completed <==> Update(m.tweens[j], now).done
      ensures Update(m.tweens[j], now).writes.Some? ==> (j, Update(m.tweens[j], now).writes.value) in t.writes
      ensures forall k :: 0 <= k < |t.writes| && t.writes[k].0 == j ==>
                Some(t.writes[k].1) == Update(m.tweens[j], now).writes
    {
      UpdateFromTicksOnce(m.tweens, 0, now, j);
    }
    (Manager(t.tweens), t)
  }

  /** A tween started at `now` that an update at `now` cannot complete. */
  predicate FreshAt(tw: Tween, now: real)
  {
    IsActive(tw) && tw.startTime == now && tw.duration > 0.0
  }

  /**
   Within one pass at `now`, a tween started at `now` stays active to the
   end of the pass: its own update sees no elapsed time, and hooks only start.
   */
  lemma {:induction false} UpdateFromKeepsFresh(ts: seq<Tween>, i: nat, now: real, b: nat)
    requires i <= |ts| && b < |ts|
    requires forall j :: 0 <= j < |ts| ==> Valid(ts[j])
    requires FreshAt(ts[b], now)
    ensures FreshAt(UpdateFrom(ts, i, now).tweens[b], now)
    decreases |ts| - i
  {
    if i < |ts| {
      UpdateFromKeepsFresh(Turn(ts, i, now), i + 1, now, b);
    }
  }

  /**
   The ping-pong guarantee: when a tween completes during a pass and its hook
   starts tween `b`, then `b` is active once the pass is over.
   */
  lemma {:induction false} CompletionStartsPartner(ts: seq<Tween>, i: nat, now: real, a: nat, b: nat)
    requires i <= |ts| && b < |ts|
    requires forall j :: 0 <= j < |ts| ==> Valid(ts[j])
    requires a in UpdateFrom(ts, i, now).completed
    requires ts[a].onComplete == StartTween(b)
    ensures IsActive(UpdateFrom(ts, i, now).tweens[b])
    decreases |ts| - i
  {
    var u := Update(ts[i], now);
    var ts2 := Turn(ts, i, now);
    var rest := UpdateFrom(ts2, i + 1, now);
    if u.done && a == i {
      UpdateFromKeepsFresh(ts2, i + 1, now, b);
    } else {
      assert a in rest.completed;
      CompletionStartsPartner(ts2, i + 1, now, a, b);
    }
  }
}

=== FILE: ui_tutorial.dfy ===
/**
 The tutorial hand of src/UI/Tutorial.ts: its two endpoints are fixed at
 construction from the cannon position, and `shift` translates both
 endpoints and rewrites the tweens' start and target values to match.
 */
module UiTutorial {
  import opened Common
  import opened Tween
  import opened HandTutorial

  datatype Tutorial = Tutorial(hand: Hand, startPos: Vec, endPos: Vec, spritePos: Vec)

  /** The constructor: endpoints from the configuration, hand shown at the start. */
  function Construct(cfg: Config): (t: Tutorial)
    ensures t.startPos == cfg.cannon.Plus(cfg.localStart)
    ensures t.endPos == cfg.cannon.Plus(cfg.localEnd)
    ensures t.spritePos == t.startPos
    ensures t.hand.active && t.hand.visible && t.hand.wiring.None?
  {
    var s := StartPos(cfg);
    Tutorial(NewHand(), s, EndPos(cfg), s)
  }

  /** `startTutorial`: the ping-pong between the stored endpoints. */
  function StartTutorial(t: Tutorial, m: Manager, now: real): (r: (Tutorial, Manager))
    ensures r.0.hand.wiring.Some?
    ensures var w := r.0.hand.wiring.value;
            && RunsBetween(r.1, w, t.startPos, t.endPos)
            && IsActive(r.1.tweens[w.moveOut]) && IsActive(r.1.tweens[w.moveBack])
            && r.1.tweens[w.moveOut].onComplete == StartTween(w.moveBack)
            && r.1.tweens[w.moveBack].onComplete == StartTween(w.moveOut)
    ensures AllValid(m) ==> AllValid(r.1)
  {
    var (m', w) := Wire(m, t.startPos, t.endPos, now);
    (t.(hand := t.hand.(wiring := Some(w))), m')
  }

  /** `stopTutorial`: the shared stop, acting only while the tutorial is active. */
  function StopTutorial(t: Tutorial, m: Manager): (r: (Tutorial, Manager))
    ensures !t.hand.active ==> r == (t, m)
    ensures t.hand.active ==> !r.0.hand.active && !r.0.hand.visible
    ensures t.hand.active && t.hand.wiring.Some? ==>
              var w := t.hand.wiring.value;
              && StopsWiring(m, r.1, w)
              && (w.moveOut < |m.tweens| ==> r.1.tweens[w.moveOut].isFinished)
              && (w.moveBack < |m.tweens| ==> r.1.tweens[w.moveBack].isFinished)
    ensures t.hand.active && t.hand.wiring.None? ==> r.1 == m
    ensures r.0.startPos == t.startPos && r.0.endPos == t.endPos
  {
    var (h, m') := HandTutorial.StopTutorial(t.hand, m);
    (t.(hand := h), m')
  }

  /** Moves both endpoints of a tween's animation to the given positions. */
  function Retarget(tw: Tween, from: Vec, to: Vec): (r: Tween)
    ensures r.startValues.Keys == tw.startValues.Keys + PositionKeys
    ensures r.targetValues.Keys == tw.targetValues.Keys + PositionKeys
    ensures r.startValues["x"] == from.x && r.startValues["y"] == from.y
    ensures r.targetValues["x"] == to.x && r.targetValues["y"] == to.y
    ensures Valid(tw) ==> Valid(r)
  {
    tw.(startValues := tw.startValues["x" := from.x]["y" := from.y],
        targetValues := tw.targetValues["x" := to.x]["y" := to.y])
  }

  /**
   `shift`: translates both endpoints by `v`, then points `moveOut` from the
   new start to the new end and `moveBack` from the new end to the new start.
   */
  function Shift(t: Tutorial, m: Manager, v: Vec): (r: (Tutorial, Manager))
    ensures r.0.startPos == t.startPos.Plus(v) && r.0.endPos == t.endPos.Plus(v)
    ensures r.0.endPos.Minus(r.0.startPos) == t.endPos.Minus(t.startPos)
    ensures r.0.hand == t.hand && |r.1.tweens| == |m.tweens|
    ensures AllValid(m) ==> AllValid(r.1)
  {
    var s := t.startPos.Plus(v);
    var e := t.endPos.Plus(v);
    var m' := match t.hand.wiring
      case None => m
      case Some(w) =>
        var m1 := if w.moveOut < |m.tweens|
                  then Manager(m.tweens[w.moveOut := Retarget(m.tweens[w.moveOut], s, e)]) else m;
        if w.moveBack < |m1.tweens|
        then Manager(m1.tweens[w.moveBack := Retarget(m1.tweens[w.moveBack], e, s)]) else m1;
    (t.(startPos := s, endPos := e), m')
  }

  /**
   After a `shift` of a started tutorial, `moveOut` runs from the new start
   to the new end and `moveBack` back again, and both keep running as before.
   */
  lemma ShiftRetargetsLegs(t: Tutorial, m: Manager, v: Vec)
    requires t.hand.wiring.Some?
    requires var w := t.hand.wiring.value;
             w.moveOut != w.moveBack && RunsBetween(m, w, t.startPos, t.endPos)
    ensures var (t', m') := Shift(t, m, v);
            var w := t.hand.wiring.value;
            && RunsBetween(m', w, t'.startPos, t'.endPos)
            && IsActive(m'.tweens[w.moveOut]) == IsActive(m.tweens[w.moveOut])
            && IsActive(m'.tweens[w.moveBack]) == IsActive(m.tweens[w.moveBack])
  {
    var (t', m') := Shift(t, m, v);
    var w := t.hand.wiring.value;
    var s := t'.startPos;
    var e := t'.endPos;
    var o := m'.tweens[w.moveOut];
    var b := m'.tweens[w.moveBack];
    assert o == Retarget(m.tweens[w.moveOut], s, e);
    assert b == Retarget(m.tweens[w.moveBack], e, s);
    assert o.startValues == PosRecord(s);
    assert o.targetValues == PosRecord(e);
    assert b.startValues == PosRecord(e);
    assert b.targetValues == PosRecord(s);
  }
}

=== FILE: viewport.dfy ===
/**
 Letterboxing the 800 by 600 design area into the window (`updateViewport`
 in src/main.ts): the game container is scaled uniformly by the largest
 factor that still fits and centred on the slack axis.
 */
module Viewport {
  import opened Common
  import Cannon

  const DesignWidth: real := 800.0
  const DesignHeight: real := 600.0

  /**
   `updateViewport`: the scale is the smaller of the two axis ratios and the
   offsets split the leftover screen evenly, so the design area fits, fills
   at least one axis and sits in the middle. A window with no width or no
   height gets scale 0.
   */
  function Fit(screenW: real, screenH: real): (c: Cannon.Container)
    ensures screenW > 0.0 && screenH > 0.0 ==> c.scale > 0.0
    ensures screenW >= 0.0 && screenH >= 0.0 && (screenW == 0.0 || screenH == 0.0) ==> c.scale == 0.0
    ensures DesignWidth * c.scale <= screenW && DesignHeight * c.scale <= screenH
    ensures DesignWidth * c.scale == screenW || DesignHeight * c.scale == screenH
    ensures 0.0 <= c.offset.x && 2.0 * c.offset.x + DesignWidth * c.scale == screenW
    ensures 0.0 <= c.offset.y && 2.0 * c.offset.y + DesignHeight * c.scale == screenH
  {
    var scale := Min(screenW / DesignWidth, screenH / DesignHeight);
    Cannon.Container(scale, Vec((screenW - DesignWidth * scale) / 2.0, (screenH - DesignHeight * scale) / 2.0))
  }

  /**
   Every design point lands on the screen inside the window, and
   `screenToWorld` maps it back.
   */
  lemma DesignRoundTrip(screenW: real, screenH: real, p: Vec)
    requires screenW > 0.0 && screenH > 0.0
    requires 0.0 <= p.x <= DesignWidth && 0.0 <= p.y <= DesignHeight
    ensures var c := Fit(screenW, screenH);
            var s := p.Times(c.scale).Plus(c.offset);
            && 0.0 <= s.x <= screenW && 0.0 <= s.y <= screenH
            && Cannon.ScreenToWorld(c, s) == p
  {
    var c := Fit(screenW, screenH);
    var k := c.scale;
    var s := p.Times(k).Plus(c.offset);
    ScaledInside(p.x, DesignWidth, k, c.offset.x, screenW);
    ScaledInside(p.y, DesignHeight, k, c.offset.y, screenH);
    assert (s.x - c.offset.x) / k == p.x;
    assert (s.y - c.offset.y) / k == p.y;
  }

  /** A coordinate within the design size, scaled and offset by half the slack, stays on screen. */
  lemma ScaledInside(x: real, size: real, k: real, off: real, screen: real)
    requires 0.0 <= x <= size && k > 0.0 && 0.0 <= off && 2.0 * off + size * k == screen
    ensures 0.0 <= k * x + off <= screen
  {
    MulMonotone(x, size, k);
    MulMonotone(0.0, x, k);
  }

  /** The centre of the window is the centre of the design area. */
  lemma CentreToCentre(screenW: real, screenH: real)
    requires screenW > 0.0 && screenH > 0.0
    ensures Cannon.ScreenToWorld(Fit(screenW, screenH), Vec(screenW / 2.0, screenH / 2.0))
            == Vec(DesignWidth / 2.0, DesignHeight / 2.0)
  {
    DesignRoundTrip(screenW, screenH, Vec(DesignWidth / 2.0, DesignHeight / 2.0));
    var c := Fit(screenW, screenH);
    assert Vec(DesignWidth / 2.0, DesignHeight / 2.0).Times(c.scale).Plus(c.offset) == Vec(screenW / 2.0, screenH / 2.0);
  }
}
